=== FILE: README.md ===
# chatnext answer resolution, modelled in Dafny

chatnext is a chat assistant for ERPNext. A user message goes through a fixed
chain of stages, and the first stage that produces something answers:

1. keyword search over the Knowledge Base Articles;
2. an AI provider fed the top articles as context;
3. a template for the doctype the chat was opened from, or for the detected intent;
4. a default greeting.

The chain also updates records:

- the usage counter of the answering article;
- the counters of the chat session;
- a process-wide cache of the local text-generation model.

Feedback on an answer rates the article it came from. Proactive suggestions are
active rules filtered by doctype and ordered by priority. The Chatnext Settings
document checks its numeric ranges before it is saved.

The modules follow the program:

- Classifiers: language and intent detection.
- KnowledgeBase: scoring and ranking. `Sorting` holds the stable sort that stands in for Python's `list.sort`.
- Markdown: the markdown normaliser, one function per regular-expression pass.
- AiEngine:
  - building the context and the prompt;
  - the request each provider is sent;
  - the post-processing of its reply;
  - the acceptance rule;
  - the `ModelCache` class behind `get_ai_model`.
- Resolver: the get_response chain and its templates.
- Proactive: rule filtering and priority order.
- Api: the records changed in place, as classes:
  - `ArticleStore` (article counters by record name);
  - `ChatMessage`;
  - `ChatSession`;
  - and `Query` and `SubmitFeedback`, which change them.
- ChatnextSettings: `validate`.
- `Text` and `Wrappers`: the Python string operations and `Option`.

Loops in the source are methods with loop invariants, each proved equal to a specification function:

- `SearchKnowledgeBase`;
- `BuildContext`;
- `GetProactiveSuggestions`.

The source's oracles are parameters:

- the records the store returns;
- the provider's raw reply (`reply`, None when the call fails);
- whether `transformers` imported, and what loading the pipeline yields;
- which article the LIKE lookup of `update_kb_stats` finds;
- the two SQL counts of `check_rule_condition`.

The markdown normaliser is not idempotent. A one-line bullet item `- - x` becomes `- x` on the first pass and `x` on the second, because each run of the bullet pass removes one leading marker. The model follows the code; `Markdown.NotIdempotent` proves the difference.

The plain-text instruction is not sent on every route. The chat system turns end with it (ai_engine.py:193, 198, 284, 289), the Ollama prompt starts with it (ai_engine.py:325), and the Gemini text with context ends with a similar instruction of its own (ai_engine.py:241). The local prompt and the Gemini text without context carry no such instruction, and the model follows the code there.

## Model

| member | source | states |
|---|---|---|
| Classifiers.DetectLanguage | chatnext/chatnext/api.py:322-330 | The result is "Urdu" exactly when characters of the Arabic block U+0600–U+06FF outnumber ASCII letters; otherwise it is "English". |
| Classifiers.DetectLanguageTie | chatnext/chatnext/api.py:328-330 | Equal counts give "English". |
| Classifiers.UrduMonotone | chatnext/chatnext/api.py:325-329 | Appending Arabic-script characters never turns an Urdu verdict into English. |
| Classifiers.EnglishMonotone | chatnext/chatnext/api.py:325-330 | Appending Latin letters never turns an English verdict into Urdu. |
| Classifiers.NeutralCharactersIgnored | chatnext/chatnext/api.py:325-326 | Appending characters that are neither Arabic-script nor Latin letters leaves the verdict unchanged. |
| Classifiers.DetectIntent | chatnext/chatnext/api.py:333-353 | The result is "general" exactly when no keyword of any intent occurs in the lower-cased message. Otherwise it is the first intent, in table order, one of whose keywords occurs, and no earlier intent has a keyword that occurs. |
| Classifiers.HowToWins | chatnext/chatnext/api.py:348-351 | A message containing any "how_to" keyword is classified "how_to", whatever else it contains. |
| Classifiers.HowToFixError | chatnext/chatnext/api.py:338-351 | "how to fix error" contains an "error" keyword, yet it is classified "how_to" because of table order. |
| KnowledgeBase.SearchKnowledgeBase | chatnext/chatnext/api.py:134-155 | The two scoring loops and the sort compute exactly `Search(query, articles)`. |
| KnowledgeBase.Hits | chatnext/chatnext/api.py:144-146 | A score never exceeds the number of query tokens. |
| KnowledgeBase.HitsAppend | chatnext/chatnext/api.py:144-146 | The score is additive over a split of the token list. |
| KnowledgeBase.RepeatedTokenCountsTwice | chatnext/chatnext/api.py:135-146 | A matching token that occurs twice in the query scores twice. |
| KnowledgeBase.SearchMembers | chatnext/chatnext/api.py:138-150 | The result holds exactly the candidates with a positive score. Each carries its own score, which lies between 1 and the token count. |
| KnowledgeBase.ZeroScoreExcluded | chatnext/chatnext/api.py:148-150 | A candidate scoring zero never appears. |
| KnowledgeBase.NoOverlapEmpty | chatnext/chatnext/api.py:144-155 | If no query token occurs in any candidate's text, the result is empty. |
| KnowledgeBase.SearchPermutes | chatnext/chatnext/api.py:153 | The sorted result is a permutation of the scored candidates. |
| KnowledgeBase.SearchSorted | chatnext/chatnext/api.py:153 | Scores are non-increasing along the result. |
| KnowledgeBase.SearchStable | chatnext/chatnext/api.py:153 | Candidates with equal scores keep their store order. |
| KnowledgeBase.TopIsBest | chatnext/chatnext/api.py:153-155 | The first result scores at least as high as every candidate. |
| KnowledgeBase.Titles | chatnext/chatnext/api.py:378 | The suggestion list has one title per article, in article order. |
| Sorting.SortPermutes | chatnext/chatnext/api.py:153 | The stable sort is a permutation of its input. |
| Sorting.SortSorted | chatnext/chatnext/api.py:276 | The sort orders its output by non-decreasing key. |
| Sorting.SortStable | chatnext/chatnext/api.py:276 | Among equal keys the sort keeps input order. |
| Markdown.RemoveMarkdownFormatting | chatnext/chatnext/ai_engine.py:32-69 | None and "" come back unchanged, and any other text gives some text. That text has no '\|', no run of three newlines, and no whitespace at either end. |
| Markdown.Finish | chatnext/chatnext/ai_engine.py:64-69 | Collapsing blank lines and stripping keep a pipe-free text free of '\|'. They leave no run of three newlines and no whitespace at the ends. |
| Markdown.RemovePipes | chatnext/chatnext/ai_engine.py:64 | The output contains no '\|'. A single '\|' is deleted and any other single character is kept. |
| Markdown.RemovePipesAppend | chatnext/chatnext/ai_engine.py:64 | The pass distributes over concatenation, so with the one-character cases it keeps every other character, in order. |
| Markdown.CollapseNoTriple | chatnext/chatnext/ai_engine.py:67 | After collapsing, no three consecutive newlines remain. |
| Markdown.HeaderRemoved | chatnext/chatnext/ai_engine.py:38 | One to six '#' and the whitespace after them are deleted at a line start. |
| Markdown.SevenHashesKept | chatnext/chatnext/ai_engine.py:38 | A line that opens with seven or more '#' is not a header and is left as it is. |
| Markdown.RuleLineRemoved | chatnext/chatnext/ai_engine.py:49 | A line of three or more '-', '*' or '_' is deleted; the newline that ends it is kept. |
| Markdown.NumberedItemRemoved | chatnext/chatnext/ai_engine.py:61 | The marker "digits. " of a one-line numbered item is deleted, and the item text is kept. |
| Markdown.EmphasisUnwrapped | chatnext/chatnext/ai_engine.py:41-46 | `d c d` becomes `c` for each delimiter (`**`, `__`, `*`, `_`), when c is a one-line text without the delimiter's character. |
| Markdown.LazyCloseFirst | chatnext/chatnext/ai_engine.py:41-46 | The lazy group `.+?` ends at the first closing delimiter before any newline. |
| Markdown.InlineCodeUnwrapped | chatnext/chatnext/ai_engine.py:52 | `` `c` `` becomes `c`. |
| Markdown.LinkUnwrapped | chatnext/chatnext/ai_engine.py:55 | `[t](u)` becomes `t`. |
| Markdown.LeadingBullet | chatnext/chatnext/ai_engine.py:58 | On a one-line text, the bullet pass deletes the leading "- " and keeps the rest as it is. |
| Markdown.NoRule | chatnext/chatnext/ai_engine.py:49 | A one-line "- …" text is not a horizontal rule. |
| Markdown.NoNumber | chatnext/chatnext/ai_engine.py:61 | A one-line text that does not start with a digit or space is left by the numbered-list pass. |
| Markdown.HeadersWithoutHash | chatnext/chatnext/ai_engine.py:38 | A text without '#' passes the header pass unchanged. |
| Markdown.EmphasisWithoutDelimiter | chatnext/chatnext/ai_engine.py:41-46 | A text without the delimiter's character passes that emphasis pass unchanged. |
| Markdown.InlineCodeWithoutBacktick | chatnext/chatnext/ai_engine.py:52 | A text without '`' passes the inline-code pass unchanged. |
| Markdown.LinksWithoutBracket | chatnext/chatnext/ai_engine.py:55 | A text without '[' passes the link pass unchanged. |
| Markdown.RemovePipesWithoutPipe | chatnext/chatnext/ai_engine.py:64 | A pipe-free text passes the pipe pass unchanged. |
| Markdown.CollapseWithoutNewline | chatnext/chatnext/ai_engine.py:67 | A text without newlines passes the blank-line pass unchanged. |
| Markdown.RewriteOffLine | chatnext/chatnext/ai_engine.py:38 | A `^`-anchored (MULTILINE) pass never fires inside a line that does not begin at the scan position. |
| Markdown.NormalizeBulletLine | chatnext/chatnext/ai_engine.py:32-69 | The whole normaliser maps "- text" to "text" for plain one-line text. |
| Markdown.PlainTextKept | chatnext/chatnext/ai_engine.py:32-69 | The whole normaliser returns a plain one-line text unchanged when it has no whitespace at its ends and does not open with a digit or '-'. |
| Markdown.NotIdempotent | chatnext/chatnext/ai_engine.py:32-69 | The normaliser maps "- - text" to "- text" and "- text" to "text", so applying it twice differs from applying it once. |
| ChatnextSettings.Validate | chatnext/chatnext/doctype/chatnext_settings/chatnext_settings.py:13-27 | There are three checks, each stated as an if-and-only-if for its own message. They run in order: temperature, then tokens, then timeout. Only the first failing check raises its message. |
| ChatnextSettings.DisabledAiIgnoresAiFields | chatnext/chatnext/doctype/chatnext_settings/chatnext_settings.py:16-23 | With AI disabled, temperature and token values never matter. |
| ChatnextSettings.BoundsInclusive | chatnext/chatnext/doctype/chatnext_settings/chatnext_settings.py:17-26 | The end points of every range are accepted. |
| ChatnextSettings.UnsetValuesAccepted | chatnext/chatnext/doctype/chatnext_settings/chatnext_settings.py:16-26 | Unset (zero) values are never checked. |
| ChatnextSettings.TemperatureCheckedFirst | chatnext/chatnext/doctype/chatnext_settings/chatnext_settings.py:16-18 | A bad temperature is reported even when the other values are bad too. |
| ChatnextSettings.TimeoutIndependentOfAi | chatnext/chatnext/doctype/chatnext_settings/chatnext_settings.py:26-27 | The timeout check applies whether or not AI is enabled. |
| AiEngine.ProviderName | chatnext/chatnext/ai_engine.py:384 | The provider name is never empty; an unset provider means "Local (Transformers)". |
| AiEngine.Confidence | chatnext/chatnext/ai_engine.py:401 | Confidence is 75 exactly for the default provider name; every other name gets 85. |
| AiEngine.ContextLine | chatnext/chatnext/ai_engine.py:373 | A context line is "- title: " followed by exactly the first min(\|answer\|, 300) characters of the answer. |
| AiEngine.Context | chatnext/chatnext/ai_engine.py:371-375 | The context is never empty. It is the placeholder exactly when there are no articles, and it contains the line of each of the first three articles. Otherwise it is exactly those lines, in ranked order, joined by "\n". |
| AiEngine.BuildContext | chatnext/chatnext/ai_engine.py:371-375 | The loop builds exactly `Context(kbArticles)`. |
| AiEngine.LanguagePrompt | chatnext/chatnext/ai_engine.py:378-380 | The prompt begins with the question. It equals the question unless the language is Urdu, in which case it ends with the Urdu directive. |
| AiEngine.ChatMessages | chatnext/chatnext/ai_engine.py:189-203 | There are two turns: the system turn starts with the assistant preamble, contains the context and ends with the plain-text instruction, and the user turn is the prompt. |
| AiEngine.GeminiText | chatnext/chatnext/ai_engine.py:239-241 | Without context the text is the prompt. With context, the text contains both the context and the prompt and ends with the plain-text tail. |
| AiEngine.OllamaPrompt | chatnext/chatnext/ai_engine.py:325-328 | The prompt starts with the plain-text instruction, contains the context block, and ends with "Question: …\n\nAnswer:". |
| AiEngine.LocalPrompt | chatnext/chatnext/ai_engine.py:127-138 | The prompt ends with "Question: …\n\nAnswer:". It starts with the context block, or with the assistant instruction when there is no context. |
| AiEngine.ProviderRequest | chatnext/chatnext/ai_engine.py:384-395 | Nothing is sent exactly when the routed hosted provider lacks its API key, or when the local route has no model. A request goes to the routed provider with `ai_max_tokens or 500`, or `or 150` for the local model. The chat providers get their own system turn and `ai_temperature or 0.7`, Gemini its text and `ai_temperature or 0.7`, Ollama its prompt and the stored temperature, and the local model its prompt, each built from the question and the context. |
| AiEngine.LocalAnswer | chatnext/chatnext/ai_engine.py:155-163 | Let a be the generated text with every copy of the prompt deleted, then stripped. The result is None exactly when a is "". Otherwise it is a non-empty prefix of a with no "\n\n" and no whitespace at its ends. It is all of a when a has no "\n\n". Only whitespace lies between its end and the first "\n\n" of a, so it is the first paragraph of a. |
| AiEngine.HostedReply | chatnext/chatnext/ai_engine.py:345 | A present Ollama reply is replaced by its stripped text before it is normalised; the other hosted replies are passed on unchanged. |
| AiEngine.HostedAnswer | chatnext/chatnext/ai_engine.py:222 | A normalised hosted reply is present exactly when the reply is. It has no '\|', no run of three newlines, and no whitespace at its ends. |
| AiEngine.HostedPlainReplyKept | chatnext/chatnext/ai_engine.py:222 | A hosted reply that is one plain line, with no whitespace at its ends and not opening with a digit or '-', becomes the answer word for word. The same holds at ai_engine.py:263, 312 and 345. |
| AiEngine.LocalAnswerDropsEcho | chatnext/chatnext/ai_engine.py:155 | A prompt echoed at the front of the generated text plays no part in the answer. |
| AiEngine.ProviderAnswer | chatnext/chatnext/ai_engine.py:222 | A failed call gives no answer. A hosted call gives an answer exactly when it gets a reply; a local reply becomes its first paragraph, as LocalAnswer states. Any answer has no run of three newlines and no whitespace at its ends. Hosted answers are free of '\|'. The same post-processing is at ai_engine.py:263, 312, 345 and 155-163. |
| AiEngine.GetAiEnhancedResponse | chatnext/chatnext/ai_engine.py:352-409 | Without settings, or with AI disabled, nothing is sent or returned. Otherwise the routed request is made. The answer is accepted exactly when it is longer than 20 characters. It is labelled "LLM", with the provider's confidence and the first three titles as suggestions. |
| AiEngine.HostedPlainReplyAccepted | chatnext/chatnext/ai_engine.py:397-403 | With AI on and a hosted provider asked, a plain one-line reply longer than 20 characters is the accepted answer word for word. |
| AiEngine.AcceptedAnswerIsClean | chatnext/chatnext/ai_engine.py:397-403 | An accepted answer is longer than 20 characters, has no run of three newlines, and has no whitespace at its ends. |
| AiEngine.NoCallReplyIrrelevant | chatnext/chatnext/ai_engine.py:384-405 | When no request is made, the provider's reply cannot affect the result. |
| AiEngine.ChatRequestCarriesContext | chatnext/chatnext/ai_engine.py:189-203 | A chat-completion request always carries the context in its system turn and the prompt as its user turn. |
| AiEngine.UrduDirectiveSent | chatnext/chatnext/ai_engine.py:379-380 | For Urdu, the user turn is the question followed by the Urdu directive. |
| AiEngine.UnknownProviderServedLocally | chatnext/chatnext/ai_engine.py:394-401 | An unknown provider name is served by the local pipeline, yet an accepted answer gets confidence 85. |
| AiEngine.CacheStep | chatnext/chatnext/ai_engine.py:72-105 | Without transformers, no model is returned and the cache is untouched. A filled cache is kept. An empty cache takes whatever the loader yields, and that is also what is returned. |
| AiEngine.ModelCache.GetAiModel | chatnext/chatnext/ai_engine.py:72-105 | The new cache and the returned model are those of `CacheStep`. |
| AiEngine.CachedModelKept | chatnext/chatnext/ai_engine.py:84 | Once a model is cached, no later call changes it or runs the loader. |
| AiEngine.FailedLoadRetried | chatnext/chatnext/ai_engine.py:101-103 | A failed load leaves the cache empty, so the next call loads again. |
| AiEngine.LoaderRunsOnce | chatnext/chatnext/ai_engine.py:84-99 | While loads succeed, the loader runs at most once over any sequence of calls. |
| Resolver.GetContextResponse | chatnext/chatnext/api.py:439-468 | There is an answer exactly for the five known doctypes: their template, "Context-Aware", 85. |
| Resolver.GetRuleBasedResponse | chatnext/chatnext/api.py:396-436 | A known session doctype gives its context answer. Otherwise there is an answer exactly for the seven known intents: their template, "Rule-Based", 70. |
| Resolver.GetDefaultResponse | chatnext/chatnext/api.py:471-486 | The default answer is "Rule-Based", with confidence 50 and no suggestions. |
| Resolver.ArticleAnswer | chatnext/chatnext/api.py:372 | The Urdu answer is used exactly when the language is Urdu and the article has one; in every other case the answer is used. |
| Resolver.GetResponse | chatnext/chatnext/api.py:356-393 | Confidence lies in 50..95. A usage update happens exactly for a knowledge-base answer, which happens exactly for a confident top match: the top article's answer, `min(score*30, 95)`, the remaining titles, and usage+1. A provider is called only with AI enabled and some result. An "LLM" answer implies a call. |
| Resolver.KnowledgeBaseIff | chatnext/chatnext/api.py:365 | The knowledge base answers exactly when some candidate scores at least 2. |
| Resolver.AiDisabledNoCall | chatnext/chatnext/api.py:382 | With AI disabled no provider is called. The answer is the template or the default. |
| Resolver.AiAnswerPreferred | chatnext/chatnext/api.py:382-385 | An accepted AI answer is returned before any template. |
| Resolver.TemplateFallback | chatnext/chatnext/api.py:387-393 | Without a KB or AI answer the order is: doctype template (85), then intent template (70), then default (50). |
| Resolver.GeneralQueryGetsDefault | chatnext/chatnext/api.py:393 | A "general" message with no known doctype and no AI gets confidence 50. |
| Resolver.UrduKnowledgeBaseAnswer | chatnext/chatnext/api.py:365-372 | For Urdu, a confident match answers with the article's Urdu text and raises its usage count. |
| Proactive.PriorityRank | chatnext/chatnext/api.py:275-276 | The ranks are Critical 0, High 1, Medium 2, Low 3; any other priority ranks 4. |
| Proactive.UrgentFirst | chatnext/chatnext/api.py:274-276 | In the output a suggestion never follows one of a less urgent priority: Critical, High, Medium, Low, then any other. |
| Proactive.CheckRuleCondition | chatnext/chatnext/api.py:512-541 | Only "Low Stock Alert" and "Overdue Invoice" can hold, each exactly when its count is present and positive. |
| Proactive.GetProactiveSuggestions | chatnext/chatnext/api.py:259-276 | The loop and the sort compute exactly `ProactiveSuggestions(rules, doctype, condition)`. |
| Proactive.CollectedIff | chatnext/chatnext/api.py:259-272 | A suggestion is collected exactly when some rule that is not skipped for the doctype, and whose condition holds, produces it. |
| Proactive.SuggestionsIff | chatnext/chatnext/api.py:259-278 | The same holds for the sorted output. |
| Proactive.SuggestionsSorted | chatnext/chatnext/api.py:274-276 | The output is ordered by priority rank. |
| Proactive.SuggestionsPermute | chatnext/chatnext/api.py:276 | The output is a permutation of the collected suggestions. |
| Proactive.SuggestionsStable | chatnext/chatnext/api.py:276 | Within one priority, rule order is kept. |
| Proactive.UntargetedRulesApplyEverywhere | chatnext/chatnext/api.py:261 | Rules without a target doctype are offered the same way for every doctype. |
| Proactive.NoDoctypeOffersAll | chatnext/chatnext/api.py:261 | With no doctype, every rule whose condition holds is offered. |
| Proactive.UnknownRuleTypesSilent | chatnext/chatnext/api.py:537-539 | Rules of other types never produce a suggestion. |
| Api.WithUsage | chatnext/chatnext/api.py:369-370 | Only the named article's usage counter changes, to the written value. |
| Api.AfterRating | chatnext/chatnext/api.py:489-509 | Only the found article changes. "Helpful" adds one to its helpful count; any other rating adds one to its unhelpful count. |
| Api.ArticleStore.ApplyUsage | chatnext/chatnext/api.py:369-370 | The new counters are `WithUsage` of the old ones. |
| Api.ArticleStore.UpdateKbStats | chatnext/chatnext/api.py:489-509 | The new counters are `AfterRating` of the old ones. |
| Api.HelpfulFlag | chatnext/chatnext/api.py:193 | The flag is "Yes" exactly for "Helpful"; otherwise it is "No". |
| Api.SubmitFeedback | chatnext/chatnext/api.py:192-198 | The message gets the helpful flag. The store is rated only when the message came from the knowledge base, and nothing else changes. |
| Api.ChatSession.RecordExchange | chatnext/chatnext/api.py:77-78 | The message count goes up by 2, and the last message is the first 200 characters. |
| Api.ResolvedLanguage | chatnext/chatnext/api.py:43 | "Auto Detect" yields Urdu or English; any other value is kept. |
| Api.ModelConsulted | chatnext/chatnext/ai_engine.py:394-395 | The local model is looked up exactly when the AI stage is reached and routes to the local pipeline. |
| Api.LoadModelIfRouted | chatnext/chatnext/ai_engine.py:121 | The cache is stepped only when the model is consulted, and the result says whether a model is ready. |
| Api.Commit | chatnext/chatnext/api.py:76-79 | The usage update is applied, then the session counters are updated. |
| Api.Query | chatnext/chatnext/api.py:14-98 | The answer and the usage write are those of get_response, for the detected language and intent and the cache state. The cache changes only when consulted. The session count goes up by 2 and the last message is the first 200 characters. |
| Api.RatingBumpsOneCounter | chatnext/chatnext/api.py:500-505 | One rating changes one counter by one, helpful exactly for "Helpful", and leaves usage alone. |
| Api.UnmatchedRatingChangesNothing | chatnext/chatnext/api.py:498 | A rating that finds no article changes nothing. |
| Api.UsageCountedOnce | chatnext/chatnext/api.py:369-370 | A knowledge-base answer raises that article's stored usage by exactly one. |

## Left out

- Record-store access is out: `frappe.get_all`, `get_doc`, `save`, `insert`, `commit`, `create_session`, `save_message` and `get_session_history`. The store's filters (active flag, category, language, page limit) are applied before the model sees the candidates, which arrive as a list in store order.
- The SQL of `check_rule_condition` is out: its two counts are parameters, and a query that raises or returns no row is None.
- The LIKE lookup of `update_kb_stats` (`%answer_text[:100]%`, `limit=1`) is out: the article it finds is a parameter.
- HTTP requests, API key retrieval and JSON parsing are out: the reply a provider produces is a parameter, and None stands for any failure, including a missing `text` part in Gemini's reply.
- The Hugging Face pipeline and its sampling are out: what loading yields, and the generated text, are parameters.
- The seed-data loaders (`load_knowledge_base.py`, `load_proactive_rules.py`) and `config/chatnext.py` are out: they only fill the store or the desk configuration.
- Logging, timestamps, the Chatnext Feedback record, `on_update` cache clearing, `preload_model`, and the outer try/except blocks that log an error and return a failure value are out.
- Api.Query: creating a new session is not modelled; the model starts from an existing session.
- AiEngine.ProviderRequest: temperatures are Dafny `real`, not IEEE floats, and are only passed through.
- AiEngine.ProviderAnswer: only the post-processing of the reply text is modelled, not what the provider does with the request.
- Api.WithUsage: a record name missing from the store is a no-op. Every name it receives comes from the store itself.
- Api.AfterRating: a found name missing from the store is a no-op. The lookup only returns names from the store.
- Resolver.GetResponse: `article.get('usage_count', 0)` on a record whose counter is NULL is not modelled; counters are integers.
- KnowledgeBase.SearchKnowledgeBase: title, question and keywords are always strings. The source's f-string renders a NULL field as "None" (api.py:141). A query token that is a substring of "none", such as "on" or "no", then scores a hit in the source but not in the model.
- KnowledgeBase.SearchKnowledgeBase: lower-casing is ASCII only. Python's `str.lower` also lower-cases non-ASCII letters, so the query "CAFÉ" matches "café" in the source but not in the model.
- AiEngine.ContextLine: title and answer are always strings. In the source a NULL title prints as "None". A NULL answer raises at `[:300]`, and the handler at ai_engine.py:407-409 then returns no AI answer.
- Classifiers.DetectIntent: lower-casing is ASCII only. Python's `str.lower` also lower-cases non-ASCII letters. A few of them lower-case to ASCII letters, such as the Kelvin sign to 'k', so a message containing one can be classified differently.
- Markdown.RemoveMarkdownFormatting: the regex passes are written as scanning functions with the same matches. Python's `\s` and `\d` are modelled by the Unicode whitespace set and by ASCII plus Arabic-Indic digits. Other Unicode decimal digits are not.
- Resolver.GetDefaultResponse: the contract states the source, the confidence and the empty suggestion list, but not the greeting text. The function body holds the English and Urdu texts of api.py:471-486.

=== FILE: AiEngine.dfy ===
/**
  The AI enrichment stage: the context built from the top articles, the
  prompt, the request each provider is sent, the clean-up of what comes
  back, the acceptance rule, and the once-only model cache.

  Nothing here talks to a provider. `ProviderRequest` says what would be sent,
  and `reply` stands for what the provider produced for that request: the
  message text for the hosted APIs (None when the call fails or carries no
  text), the "response" field for Ollama, and the generated text for the local
  pipeline.
 */
module AiEngine {
  import opened Wrappers
  import opened Text
  import opened Markdown
  import opened KnowledgeBase
  import opened ChatnextSettings
  import opened Answers

  const DefaultProvider := "Local (Transformers)"
  const NoArticlesContext := "No specific knowledge base articles found."
  const UrduDirective := "\n\nPlease respond in Urdu (اردو میں جواب دیں)."
  const Assistant := "You are a helpful ERPNext assistant. "
  const PlainTextRule := "Always respond in plain text without markdown formatting (no **, ###, ---, or bullet points)."
  const GeminiTail := "\n\nProvide a helpful answer for ERPNext users in plain text without any markdown formatting (no **, ###, ---, or bullet points). Use simple paragraphs only."
  const LocalModelName := "facebook/opt-125m"
  const OpenRouterModel := "google/gemini-flash-1.5-8b:free"
  const DeepSeekModel := "deepseek-chat"
  const OllamaModel := "llama3.2:3b"

  datatype Provider = OpenRouter | GoogleGemini | DeepSeek | Ollama | LocalTransformers

  /** `settings.ai_provider or "Local (Transformers)"` */
  function ProviderName(s: Settings): (name: string)
    ensures name != ""
    ensures s.provider != "" ==> name == s.provider
  {
    if s.provider == "" then DefaultProvider else s.provider
  }

  /** The provider branch taken for a provider name; every other name falls through to the local pipeline. */
  function Route(name: string): Provider {
    if name == "OpenRouter" then OpenRouter
    else if name == "Google Gemini" then GoogleGemini
    else if name == "DeepSeek" then DeepSeek
    else if name == "Ollama (Local)" then Ollama
    else LocalTransformers
  }

  /** The confidence of an accepted AI answer, decided by comparing the name with the default. */
  function Confidence(name: string): (c: int)
    ensures c == 75 || c == 85
    ensures c == 75 <==> name == DefaultProvider
  {
    if name != DefaultProvider then 85 else 75
  }

  // ---------------------------------------------------------------------
  // Context and prompt

  /** `- {title}: {answer[:300]}` */
  function ContextLine(a: Scored): (line: string)
    ensures IsPrefix("- " + a.article.title + ": ", line)
    ensures |line| <= |a.article.title| + 4 + 300
    ensures var n := |a.article.title| + 4;
      |line| - n == (if |a.article.answer| < 300 then |a.article.answer| else 300) &&
      line[n..] == a.article.answer[..|line| - n]
  {
    var head := "- " + a.article.title + ": ";
    var line := head + Take(a.article.answer, 300);
    assert line[..|head|] == head;
    line
  }

  /** One context line for each of the first three articles, in ranked order. */
  function ContextLines(articles: seq<Scored>): (lines: seq<string>)
    ensures |lines| == if |articles| < 3 then |articles| else 3
    ensures forall i :: 0 <= i < |lines| ==> lines[i] == ContextLine(articles[i])
  {
    var top := Take(articles, 3);
    seq(|top|, i requires 0 <= i < |top| => ContextLine(top[i]))
  }

  /** The context handed to every provider: the lines joined by "\n", or the placeholder when there are none. */
  function Context(articles: seq<Scored>): (context: string)
    ensures context != ""
    ensures context == NoArticlesContext <==> |articles| == 0
    ensures forall i :: 0 <= i < |articles| && i < 3 ==> Contains(context, ContextLine(articles[i]))
    ensures |articles| > 0 ==> context == Join(ContextLines(articles), "\n")
  {
    var lines := ContextLines(articles);
    if |lines| == 0 then NoArticlesContext
    else
      var context := Join(lines, "\n");
      JoinStartsWithFirst(lines, "\n");
      assert lines[0] == ContextLine(articles[0]);
      assert lines[0][..2] == "- ";
      assert context[0] == lines[0][0] == '-';
      assert NoArticlesContext[0] == 'N';
      forall i | 0 <= i < |articles| && i < 3 ensures Contains(context, ContextLine(articles[i])) {
        JoinContains(lines, "\n", i);
      }
      context
  }

  /** The loop of get_ai_enhanced_response that collects `context_parts`, then the join. */
  method BuildContext(kbArticles: seq<Scored>) returns (context: string)
    ensures context == Context(kbArticles)
  {
    var contextParts: seq<string> := [];
    var top := Take(kbArticles, 3);
    for i := 0 to |top|
      invariant |contextParts| == i
      invariant forall k :: 0 <= k < i ==> contextParts[k] == ContextLine(top[k])
    {
      contextParts := contextParts + [ContextLine(top[i])];
    }
    assert contextParts == ContextLines(kbArticles);
    if |contextParts| > 0 {
      context := Join(contextParts, "\n");
    } else {
      context := NoArticlesContext;
    }
  }

  /** The question, with the Urdu directive appended exactly when the language is "Urdu". */
  function LanguagePrompt(question: string, language: string): (prompt: string)
    ensures IsPrefix(question, prompt)
    ensures prompt == question <==> language != "Urdu"
    ensures language == "Urdu" ==> prompt[|question|..] == UrduDirective
  {
    if language == "Urdu" then
      var prompt := question + UrduDirective;
      assert prompt[..|question|] == question;
      prompt
    else question
  }

  // ---------------------------------------------------------------------
  // Provider requests

  datatype ChatTurn = ChatTurn(role: string, content: string)

  /** A request as each provider helper would send it. */
  datatype ProviderCall =
    | ChatCompletion(provider: Provider, model: string, messages: seq<ChatTurn>, maxTokens: int, temperature: real)
    | GeminiGenerate(text: string, maxOutputTokens: int, temperature: real)
    | OllamaGenerate(model: string, prompt: string, numPredict: int, temperature: real)
    | LocalGenerate(model: string, prompt: string, maxLength: int)

  /** Which provider a request goes to. */
  function Target(call: ProviderCall): Provider {
    match call
    case ChatCompletion(p, _, _, _, _) => p
    case GeminiGenerate(_, _, _) => GoogleGemini
    case OllamaGenerate(_, _, _, _) => Ollama
    case LocalGenerate(_, _, _) => LocalTransformers
  }

  /** The token or length budget of a request. */
  function Budget(call: ProviderCall): int {
    match call
    case ChatCompletion(_, _, _, n, _) => n
    case GeminiGenerate(_, n, _) => n
    case OllamaGenerate(_, _, n, _) => n
    case LocalGenerate(_, _, n) => n
  }

  /** `x or d` for a number */
  function OrInt(x: int, d: int): int { if x != 0 then x else d }
  function OrReal(x: real, d: real): real { if x != 0.0 then x else d }

  /** The two chat messages of call_openrouter_api (`answerLead` "Use this context to answer: ") and of call_deepseek_api ("Use this context: "). */
  function ChatMessages(answerLead: string, prompt: string, context: string): (messages: seq<ChatTurn>)
    ensures |messages| == 2 && messages[0].role == "system" && messages[1] == ChatTurn("user", prompt)
    ensures IsPrefix(Assistant, messages[0].content)
    ensures context != "" ==> Contains(messages[0].content, context)
    ensures EndsWith(messages[0].content, PlainTextRule)
  {
    var system :=
      if context != "" then Assistant + answerLead + context + ". " + PlainTextRule
      else Assistant + PlainTextRule;
    assert system[..|Assistant|] == Assistant;
    assert system[|system| - |PlainTextRule|..] == PlainTextRule;
    assert context != "" ==> Contains(system, context) by {
      if context != "" {
        assert system[|Assistant + answerLead|..|Assistant + answerLead| + |context|] == context;
        ContainsSelf(context);
        ContainsInSlice(system, |Assistant + answerLead|, |Assistant + answerLead| + |context|, context);
      }
    }
    [ChatTurn("system", system), ChatTurn("user", prompt)]
  }

  /** The single text part of call_gemini_api: the prompt itself, or the prompt wrapped with the context. */
  function GeminiText(prompt: string, context: string): (text: string)
    ensures context == "" ==> text == prompt
    ensures context != "" ==> Contains(text, context) && Contains(text, prompt)
    ensures context != "" ==> EndsWith(text, GeminiTail)
  {
    if context == "" then prompt
    else
      var head := "Context: " + context + "\n\nQuestion: ";
      var text := head + prompt + GeminiTail;
      assert text[9..9 + |context|] == context;
      assert text[|head|..|head| + |prompt|] == prompt;
      assert text[|text| - |GeminiTail|..] == GeminiTail;
      ContainsSelf(context);
      ContainsSelf(prompt);
      ContainsInSlice(text, 9, 9 + |context|, context);
      ContainsInSlice(text, |head|, |head| + |prompt|, prompt);
      text
  }

  /** The text ends with `suffix`. */
  predicate EndsWith(s: string, suffix: string) {
    |suffix| <= |s| && s[|s| - |suffix|..] == suffix
  }

  /** The full prompt of call_ollama_api. */
  function OllamaPrompt(prompt: string, context: string): (full: string)
    ensures IsPrefix(Assistant + PlainTextRule + "\n\n", full)
    ensures EndsWith(full, "Question: " + prompt + "\n\nAnswer:")
    ensures context != "" ==> Contains(full, "Context: " + context + "\n\n")
  {
    var head := Assistant + PlainTextRule + "\n\n";
    var middle := if context != "" then "Context: " + context + "\n\n" else "";
    var tail := "Question: " + prompt + "\n\nAnswer:";
    var full := head + middle + tail;
    assert full[..|head|] == head;
    assert full[|full| - |tail|..] == tail;
    assert context != "" ==> Contains(full, middle) by {
      if context != "" {
        assert full[|head|..|head| + |middle|] == middle;
        ContainsSelf(middle);
        ContainsInSlice(full, |head|, |head| + |middle|, middle);
      }
    }
    full
  }

  /** The lead of a local prompt without context. */
  const LocalInstruction := "You are a helpful ERPNext assistant. Answer the following question clearly and concisely.\n\n"

  /** The prompt generate_ai_response hands the local pipeline. */
  function LocalPrompt(question: string, context: string): (prompt: string)
    ensures EndsWith(prompt, "Question: " + question + "\n\nAnswer:")
    ensures context != "" ==> IsPrefix("Context: " + context + "\n\n", prompt)
    ensures context == "" ==> IsPrefix(LocalInstruction, prompt)
  {
    var tail := "Question: " + question + "\n\nAnswer:";
    var head := if context != "" then "Context: " + context + "\n\n" else LocalInstruction;
    var prompt := head + tail;
    assert prompt[..|head|] == head;
    assert prompt[|prompt| - |tail|..] == tail;
    prompt
  }

  /**
    The request the routed provider is sent, or None when no request is made:
    a hosted provider without its API key, or the local pipeline without a
    loaded model. Hosted providers get `ai_max_tokens or 500` and
    `ai_temperature or 0.7`; Ollama gets the temperature as stored; the local
    pipeline gets `ai_max_tokens or 150`.
   */
  function ProviderRequest(s: Settings, prompt: string, context: string, modelReady: bool): (call: Option<ProviderCall>)
    ensures call.None? <==>
      match Route(ProviderName(s))
      case OpenRouter => !s.hasOpenRouterKey
      case GoogleGemini => !s.hasGeminiKey
      case DeepSeek => !s.hasDeepSeekKey
      case Ollama => false
      case LocalTransformers => !modelReady
    ensures call.Some? ==> Target(call.value) == Route(ProviderName(s))
    ensures call.Some? ==> Budget(call.value) == OrInt(s.maxTokens, if Route(ProviderName(s)) == LocalTransformers then 150 else 500)
    ensures call.Some? && call.value.ChatCompletion? ==>
      call.value.temperature == OrReal(s.temperature, 0.7) &&
      call.value.messages == ChatMessages(if call.value.provider == OpenRouter then "Use this context to answer: " else "Use this context: ", prompt, context)
    ensures call.Some? && call.value.GeminiGenerate? ==>
      call.value.text == GeminiText(prompt, context) && call.value.temperature == OrReal(s.temperature, 0.7)
    ensures call.Some? && call.value.OllamaGenerate? ==>
      call.value.prompt == OllamaPrompt(prompt, context) && call.value.temperature == s.temperature
    ensures call.Some? && call.value.LocalGenerate? ==> call.value.prompt == LocalPrompt(prompt, context)
  {
    match Route(ProviderName(s))
    case OpenRouter =>
      if !s.hasOpenRouterKey then None
      else Some(ChatCompletion(OpenRouter, OpenRouterModel, ChatMessages("Use this context to answer: ", prompt, context),
                               OrInt(s.maxTokens, 500), OrReal(s.temperature, 0.7)))
    case GoogleGemini =>
      if !s.hasGeminiKey then None
      else Some(GeminiGenerate(GeminiText(prompt, context), OrInt(s.maxTokens, 500), OrReal(s.temperature, 0.7)))
    case DeepSeek =>
      if !s.hasDeepSeekKey then None
      else Some(ChatCompletion(DeepSeek, DeepSeekModel, ChatMessages("Use this context: ", prompt, context),
                               OrInt(s.maxTokens, 500), OrReal(s.temperature, 0.7)))
    case Ollama =>
      Some(OllamaGenerate(OllamaModel, OllamaPrompt(prompt, context), OrInt(s.maxTokens, 500), s.temperature))
    case LocalTransformers =>
      if !modelReady then None
      else Some(LocalGenerate(LocalModelName, LocalPrompt(prompt, context), OrInt(s.maxTokens, 150)))
  }

  // ---------------------------------------------------------------------
  // What comes back

  /**
    generate_ai_response after generation: the prompt is deleted from the
    generated text, the rest is stripped and cut at the first blank line. An
    empty remainder gives None; otherwise the answer is non-empty, holds no
    blank line and has no whitespace at either end.
   */
  function LocalAnswer(generated: string, prompt: string): (answer: Option<string>)
    ensures answer.Some? ==> answer.value != ""
    ensures answer.Some? ==> !Contains(answer.value, "\n\n")
    ensures answer.Some? ==> !IsSpace(answer.value[0]) && !IsSpace(answer.value[|answer.value| - 1])
    ensures answer.None? <==> Strip(RemoveAll(generated, prompt)) == ""
    ensures answer.Some? ==> IsPrefix(answer.value, Strip(RemoveAll(generated, prompt)))
    ensures answer.Some? && !Contains(Strip(RemoveAll(generated, prompt)), "\n\n") ==>
      answer.value == Strip(RemoveAll(generated, prompt))
    ensures answer.Some? ==> ParagraphEnd(Strip(RemoveAll(generated, prompt)), |answer.value|)
    ensures answer.Some? ==> Tidy(answer.value)
  {
    var a := Strip(RemoveAll(generated, prompt));
    if a == "" then None
    else
      FirstParagraph(a);
      Some(Strip(FirstSegment(a, "\n\n")))
  }

  /** What `a.split('\n\n')[0].strip()` keeps of a non-empty stripped text `a`. */
  lemma FirstParagraph(a: string)
    requires a != "" && !IsSpace(a[0]) && !IsSpace(a[|a| - 1])
    ensures var r := Strip(FirstSegment(a, "\n\n"));
      r != "" && !IsSpace(r[0]) && !IsSpace(r[|r| - 1]) && !Contains(r, "\n\n") && Tidy(r) &&
      IsPrefix(r, a) && (!Contains(a, "\n\n") ==> r == a) && ParagraphEnd(a, |r|)
  {
    var first := FirstSegment(a, "\n\n");
    var r := Strip(first);
    FirstSegmentStart(a, "\n\n");
    assert Span(first, IsSpace) == 0;
    assert r == first[..|r|];
    FirstSegmentFree(a, "\n\n");
    assert !Contains(r, "\n\n") by {
      if Contains(r, "\n\n") {
        ContainsInSlice(first, 0, |r|, "\n\n");
      }
    }
    NoPairNoTriple(r);
    WholeParagraph(a);
    TrailingBlank(a, first, r);
  }

  /** A text without "\n\n" is one paragraph. */
  lemma WholeParagraph(a: string)
    requires a != "" && !IsSpace(a[0]) && !IsSpace(a[|a| - 1])
    ensures !Contains(a, "\n\n") ==> Strip(FirstSegment(a, "\n\n")) == a
  {
    var first := FirstSegment(a, "\n\n");
    FirstSegmentFirst(a, "\n\n");
    if !Contains(a, "\n\n") {
      if |first| < |a| {
        assert a[|first|..|first| + 2] == "\n\n";
        ContainsAt(a, "\n\n", |first|);
      }
      assert first == a;
      assert a[0..] == a;
    }
  }

  lemma TrailingBlank(a: string, first: string, r: string)
    requires first == FirstSegment(a, "\n\n") && r == Strip(first) && Span(first, IsSpace) == 0
    ensures IsPrefix(r, a) && ParagraphEnd(a, |r|)
  {
    assert r == first[..|r|];
    assert r == a[..|r|];
    FirstSegmentFirst(a, "\n\n");
    forall i | |r| <= i < |first| ensures IsSpace(a[i]) {
      assert a[i] == first[i];
    }
  }

  /**
    The text from `n` on is only whitespace up to the first "\n\n" of `a`, or up to
    its end when it holds none: a[..n] is that first paragraph, less its trailing
    whitespace.
   */
  predicate ParagraphEnd(a: string, n: nat) {
    var m := |FirstSegment(a, "\n\n")|;
    n <= m && (forall i :: n <= i < m ==> IsSpace(a[i])) &&
    (m == |a| || IsPrefix("\n\n", a[m..])) && (forall j :: 0 <= j < m ==> !IsPrefix("\n\n", a[j..]))
  }

  /** The prompt the pipeline echoes at the front of its output plays no part in the answer. */
  lemma LocalAnswerDropsEcho(prompt: string, continuation: string)
    requires prompt != "" && !Contains(continuation, prompt)
    ensures LocalAnswer(prompt + continuation, prompt) == LocalAnswer(continuation, prompt)
    ensures RemoveAll(prompt + continuation, prompt) == continuation
  {
    RemoveAllLeading(prompt, continuation);
    RemoveAllAbsent(continuation, prompt);
  }

  /** The answer text a provider's reply becomes, before the acceptance rule. */
  function ProviderAnswer(call: ProviderCall, reply: Option<string>): (answer: Option<string>)
    ensures reply.None? ==> answer.None?
    ensures answer.Some? ==> Tidy(answer.value)
    ensures answer.Some? && !call.LocalGenerate? ==> forall i :: 0 <= i < |answer.value| ==> answer.value[i] != '|'
    ensures !call.LocalGenerate? ==> (answer.Some? <==> reply.Some?)
    ensures call.LocalGenerate? && reply.Some? ==> answer == LocalAnswer(reply.value, call.prompt)
  {
    if call.LocalGenerate? then
      if reply.None? then None else LocalAnswer(reply.value, call.prompt)
    else HostedAnswer(call, reply)
  }

  /** A hosted provider's reply, normalised. */
  function HostedAnswer(call: ProviderCall, reply: Option<string>): (answer: Option<string>)
    ensures answer.None? <==> reply.None?
    ensures answer.Some? ==> Tidy(answer.value)
    ensures answer.Some? ==> forall i :: 0 <= i < |answer.value| ==> answer.value[i] != '|'
  {
    RemoveMarkdownFormatting(HostedReply(call, reply))
  }

  /**
    A hosted reply that is one line of plain characters, with no whitespace at
    its ends and not opening with a digit or '-', is the answer word for word.
   */
  lemma HostedPlainReplyKept(call: ProviderCall, t: string)
    requires !call.LocalGenerate?
    requires |t| > 0 && PlainLine(t) && !IsSpace(t[0]) && !IsDigit(t[0]) && t[0] != '-' && !IsSpace(t[|t| - 1])
    ensures ProviderAnswer(call, Some(t)) == Some(t)
  {
    StripKeeps(t);
    assert HostedReply(call, Some(t)) == Some(t);
    PlainTextKept(t);
  }

  /** Ollama's "response" field is stripped before it is normalised; the other hosted replies are normalised as they come. */
  function HostedReply(call: ProviderCall, reply: Option<string>): (text: Option<string>)
    ensures text.None? <==> reply.None?
    ensures !call.OllamaGenerate? ==> text == reply
    ensures call.OllamaGenerate? && reply.Some? ==> text == Some(Strip(reply.value))
  {
    if call.OllamaGenerate? && reply.Some? then Some(Strip(reply.value)) else reply
  }

  /** A text without "\n\n" has no "\n\n\n". */
  lemma NoPairNoTriple(s: string)
    requires !Contains(s, "\n\n")
    ensures !Contains(s, "\n\n\n")
  {
    if Contains(s, "\n\n\n") {
      var i := ContainsWitness(s, "\n\n\n");
      assert s[i..i + 2] == "\n\n" by {
        assert s[i..i + 2] == s[i..i + 3][..2];
      }
      ContainsAt(s, "\n\n", i);
    }
  }

  // ---------------------------------------------------------------------
  // get_ai_enhanced_response

  /** The request made (if any) and the answer accepted (if any). */
  datatype Enrichment = Enrichment(call: Option<ProviderCall>, answer: Option<Answer>)

  /** The prompt and the context every provider receives for a question. */
  function EnrichmentRequest(question: string, kbArticles: seq<Scored>, language: string, s: Settings, modelReady: bool): Option<ProviderCall> {
    ProviderRequest(s, LanguagePrompt(question, language), Context(kbArticles), modelReady)
  }

  /**
    get_ai_enhanced_response. Without settings or with AI responses disabled
    nothing is sent and nothing is returned. Otherwise the routed provider is
    asked, and its answer is accepted exactly when it is longer than 20
    characters; an accepted answer is labelled "LLM", carries the provider's
    confidence and suggests the titles of the first three articles.
   */
  function GetAiEnhancedResponse(question: string, kbArticles: seq<Scored>, language: string,
                                 settings: Option<Settings>, modelReady: bool, reply: Option<string>): (e: Enrichment)
    ensures settings.None? || !settings.value.enableAi ==> e == Enrichment(None, None)
    ensures settings.Some? && settings.value.enableAi ==>
      e.call == EnrichmentRequest(question, kbArticles, language, settings.value, modelReady)
    ensures e.call.None? ==> e.answer.None?
    ensures e.call.Some? ==>
      (e.answer.Some? <==> ProviderAnswer(e.call.value, reply).Some? && |ProviderAnswer(e.call.value, reply).value| > 20)
    ensures e.answer.Some? ==>
      e.answer.value.text == ProviderAnswer(e.call.value, reply).value &&
      e.answer.value.source == LlmSource &&
      e.answer.value.confidence == Confidence(ProviderName(settings.value)) &&
      e.answer.value.suggestions == Titles(Take(kbArticles, 3))
  {
    if settings.None? || !settings.value.enableAi then Enrichment(None, None)
    else
      var s := settings.value;
      var call := EnrichmentRequest(question, kbArticles, language, s, modelReady);
      if call.None? then Enrichment(None, None)
      else
        var aiAnswer := ProviderAnswer(call.value, reply);
        if aiAnswer.Some? && |aiAnswer.value| > 20 then
          Enrichment(call, Some(Answer(aiAnswer.value, LlmSource, Confidence(ProviderName(s)), Titles(Take(kbArticles, 3)))))
        else Enrichment(call, None)
  }

  /** Every accepted AI answer is longer than 20 characters, has no run of three newlines and no whitespace at its ends. */
  lemma AcceptedAnswerIsClean(question: string, kbArticles: seq<Scored>, language: string,
                              settings: Option<Settings>, modelReady: bool, reply: Option<string>)
    requires GetAiEnhancedResponse(question, kbArticles, language, settings, modelReady, reply).answer.Some?
    ensures var t := GetAiEnhancedResponse(question, kbArticles, language, settings, modelReady, reply).answer.value.text;
      |t| > 20 && !Contains(t, "\n\n\n") && !IsSpace(t[0]) && !IsSpace(t[|t| - 1])
  {
  }

  /**
    With AI responses on and a hosted provider asked, a plain one-line reply
    longer than 20 characters is accepted word for word.
   */
  lemma HostedPlainReplyAccepted(question: string, kbArticles: seq<Scored>, language: string,
                                 s: Settings, modelReady: bool, t: string)
    requires s.enableAi
    requires var call := EnrichmentRequest(question, kbArticles, language, s, modelReady); call.Some? && !call.value.LocalGenerate?
    requires |t| > 20 && PlainLine(t) && !IsSpace(t[0]) && !IsDigit(t[0]) && t[0] != '-' && !IsSpace(t[|t| - 1])
    ensures var e := GetAiEnhancedResponse(question, kbArticles, language, Some(s), modelReady, Some(t));
      e.answer.Some? && e.answer.value.text == t
  {
    HostedPlainReplyKept(EnrichmentRequest(question, kbArticles, language, s, modelReady).value, t);
  }

  /** When no request is made the reply cannot matter. */
  lemma NoCallReplyIrrelevant(question: string, kbArticles: seq<Scored>, language: string,
                              settings: Option<Settings>, modelReady: bool, reply: Option<string>, other: Option<string>)
    requires GetAiEnhancedResponse(question, kbArticles, language, settings, modelReady, reply).call.None?
    ensures GetAiEnhancedResponse(question, kbArticles, language, settings, modelReady, other) ==
            GetAiEnhancedResponse(question, kbArticles, language, settings, modelReady, reply)
  {
  }

  /** The context is never empty, so a chat provider's system message always carries it, and the user turn is the prompt. */
  lemma ChatRequestCarriesContext(question: string, kbArticles: seq<Scored>, language: string, s: Settings, modelReady: bool)
    requires var call := EnrichmentRequest(question, kbArticles, language, s, modelReady); call.Some? && call.value.ChatCompletion?
    ensures var m := EnrichmentRequest(question, kbArticles, language, s, modelReady).value.messages;
      |m| == 2 && Contains(m[0].content, Context(kbArticles)) && m[1] == ChatTurn("user", LanguagePrompt(question, language))
  {
  }

  /** For an Urdu question the Urdu directive reaches the provider after the question. */
  lemma UrduDirectiveSent(question: string, kbArticles: seq<Scored>, s: Settings, modelReady: bool)
    requires var call := EnrichmentRequest(question, kbArticles, "Urdu", s, modelReady); call.Some? && call.value.ChatCompletion?
    ensures EnrichmentRequest(question, kbArticles, "Urdu", s, modelReady).value.messages[1].content == question + UrduDirective
  {
    var p := LanguagePrompt(question, "Urdu");
    assert p == p[..|question|] + p[|question|..];
  }

  /**
    A provider name that is none of the four known ones is served by the
    local pipeline, yet an accepted answer is given confidence 85, the
    value of the hosted providers, since only the default name gets 75.
   */
  lemma UnknownProviderServedLocally(question: string, kbArticles: seq<Scored>, language: string,
                                     s: Settings, modelReady: bool, reply: Option<string>)
    requires s.enableAi && s.provider != "" && s.provider != DefaultProvider
    requires s.provider != "OpenRouter" && s.provider != "Google Gemini" && s.provider != "DeepSeek" && s.provider != "Ollama (Local)"
    ensures var e := GetAiEnhancedResponse(question, kbArticles, language, Some(s), modelReady, reply);
      (e.call.Some? ==> e.call.value.LocalGenerate?) && (e.answer.Some? ==> e.answer.value.confidence == 85)
  {
  }

  // ---------------------------------------------------------------------
  // The model cache of get_ai_model

  datatype ModelHandle = ModelHandle(model: string)

  /**
    One call of get_ai_model: (the cache afterwards, the model returned).
    `loaded` is what loading the pipeline gives (None when the load raises);
    it is consulted only when transformers is available and the cache is empty.
   */
  function CacheStep(cache: Option<ModelHandle>, transformersAvailable: bool, loaded: Option<ModelHandle>): (r: (Option<ModelHandle>, Option<ModelHandle>))
    ensures r.1 == if transformersAvailable then r.0 else None
    ensures cache.Some? ==> r.0 == cache
    ensures cache.None? ==> r.0 == (if transformersAvailable then loaded else None)
  {
    if !transformersAvailable then (cache, None)
    else if cache.None? then (loaded, loaded)
    else (cache, cache)
  }

  /** The global `_model_cache`. */
  class ModelCache {
    var cache: Option<ModelHandle>

    constructor()
      ensures cache == None
    {
      cache := None;
    }

    method GetAiModel(transformersAvailable: bool, loaded: Option<ModelHandle>) returns (model: Option<ModelHandle>)
      modifies this
      ensures (cache, model) == CacheStep(old(cache), transformersAvailable, loaded)
    {
      if !transformersAvailable {
        return None;
      }
      if cache.None? {
        cache := loaded;
      }
      model := cache;
    }
  }

  datatype CacheCall = CacheCall(transformersAvailable: bool, loaded: Option<ModelHandle>)

  /** The cache after a sequence of get_ai_model calls. */
  function CacheAfter(cache: Option<ModelHandle>, calls: seq<CacheCall>): Option<ModelHandle>
    decreases |calls|
  {
    if |calls| == 0 then cache
    else CacheAfter(CacheStep(cache, calls[0].transformersAvailable, calls[0].loaded).0, calls[1..])
  }

  /** How many of those calls run the loader. */
  function LoaderRuns(cache: Option<ModelHandle>, calls: seq<CacheCall>): nat
    decreases |calls|
  {
    if |calls| == 0 then 0
    else
      (if calls[0].transformersAvailable && cache.None? then 1 else 0) +
      LoaderRuns(CacheStep(cache, calls[0].transformersAvailable, calls[0].loaded).0, calls[1..])
  }

  /** Once a model is cached, every later call keeps it and none runs the loader. */
  lemma {:induction false} CachedModelKept(h: ModelHandle, calls: seq<CacheCall>)
    ensures CacheAfter(Some(h), calls) == Some(h)
    ensures LoaderRuns(Some(h), calls) == 0
  {
    if |calls| > 0 {
      CachedModelKept(h, calls[1..]);
    }
  }

  /** A failed load leaves the cache empty, so a later call tries again. */
  lemma FailedLoadRetried(calls: seq<CacheCall>)
    requires |calls| >= 2 && calls[0] == CacheCall(true, None) && calls[1].transformersAvailable
    ensures LoaderRuns(None, calls) >= 2
  {
    assert calls[1..][0] == calls[1];
  }

  /** While the loader succeeds, it runs at most once over any sequence of calls. */
  lemma {:induction false} LoaderRunsOnce(cache: Option<ModelHandle>, calls: seq<CacheCall>)
    requires forall i :: 0 <= i < |calls| ==> calls[i].loaded.Some?
    ensures LoaderRuns(cache, calls) <= 1
    ensures cache.Some? ==> LoaderRuns(cache, calls) == 0
  {
    if |calls| > 0 {
      var next := CacheStep(cache, calls[0].transformersAvailable, calls[0].loaded).0;
      if cache.Some? {
        CachedModelKept(cache.value, calls);
      } else if calls[0].transformersAvailable {
        CachedModelKept(next.value, calls[1..]);
      } else {
        LoaderRunsOnce(next, calls[1..]);
      }
    }
  }
}

=== FILE: Answers.dfy ===
/** The response record every answering stage returns, and the source labels it carries. */
module Answers {
  datatype Answer = Answer(text: string, source: string, confidence: int, suggestions: seq<string>)

  const KnowledgeBaseSource := "Knowledge Base"
  const LlmSource := "LLM"
  const ContextSource := "Context-Aware"
  const RuleSource := "Rule-Based"
}

=== FILE: Api.dfy ===
/**
  The state the whitelisted endpoints change: the counters of the knowledge
  base articles, the `helpful` flag of a chat message, the counters of a chat
  session, and the model cache, together with query and submit_feedback,
  which update them.
 */
module Api {
  import opened Wrappers
  import opened Text
  import opened Classifiers
  import opened KnowledgeBase
  import opened ChatnextSettings
  import opened AiEngine
  import opened Answers
  import opened Resolver

  /** The counters of one Knowledge Base Article. */
  datatype Counters = Counters(usage: int, helpful: int, unhelpful: int)

  /** The store after `frappe.db.set_value(..., "usage_count", value)`. */
  function WithUsage(counters: map<string, Counters>, u: UsageUpdate): (r: map<string, Counters>)
    ensures r.Keys == counters.Keys
    ensures forall n :: n in counters && n != u.article ==> r[n] == counters[n]
    ensures u.article in counters ==> r[u.article] == counters[u.article].(usage := u.value)
  {
    if u.article in counters then counters[u.article := counters[u.article].(usage := u.value)] else counters
  }

  /**
    update_kb_stats. `found` is the article the LIKE lookup on the message text
    finds (None when none matches); a "Helpful" rating counts as helpful, any
    other rating as unhelpful.
   */
  function AfterRating(counters: map<string, Counters>, found: Option<string>, rating: string): (r: map<string, Counters>)
    ensures r.Keys == counters.Keys
    ensures forall n :: n in counters && (found.None? || n != found.value) ==> r[n] == counters[n]
    ensures found.Some? && found.value in counters && rating == "Helpful" ==>
      r[found.value] == counters[found.value].(helpful := counters[found.value].helpful + 1)
    ensures found.Some? && found.value in counters && rating != "Helpful" ==>
      r[found.value] == counters[found.value].(unhelpful := counters[found.value].unhelpful + 1)
  {
    if found.None? || found.value !in counters then counters
    else
      var c := counters[found.value];
      counters[found.value := if rating == "Helpful" then c.(helpful := c.helpful + 1) else c.(unhelpful := c.unhelpful + 1)]
  }

  /** The counters of the Knowledge Base Article records, by record name. */
  class ArticleStore {
    var counters: map<string, Counters>

    constructor(initial: map<string, Counters>)
      ensures counters == initial
    {
      counters := initial;
    }

    method ApplyUsage(u: UsageUpdate)
      modifies this
      ensures counters == WithUsage(old(counters), u)
    {
      if u.article in counters {
        counters := counters[u.article := counters[u.article].(usage := u.value)];
      }
    }

    method UpdateKbStats(found: Option<string>, rating: string)
      modifies this
      ensures counters == AfterRating(old(counters), found, rating)
    {
      if found.Some? && found.value in counters {
        var article := counters[found.value];
        if rating == "Helpful" {
          counters := counters[found.value := article.(helpful := article.helpful + 1)];
        } else {
          counters := counters[found.value := article.(unhelpful := article.unhelpful + 1)];
        }
      }
    }
  }

  /** The fields of a Chat Message record that submit_feedback reads or sets. */
  class ChatMessage {
    var text: string
    var source: string
    var helpful: string

    constructor(text: string, source: string)
      ensures this.text == text && this.source == source && helpful == ""
    {
      this.text := text;
      this.source := source;
      helpful := "";
    }
  }

  /** `"Yes" if rating == "Helpful" else "No"` */
  function HelpfulFlag(rating: string): (flag: string)
    ensures flag == "Yes" <==> rating == "Helpful"
    ensures flag == "Yes" || flag == "No"
  {
    if rating == "Helpful" then "Yes" else "No"
  }

  /**
    submit_feedback: the message is marked helpful or not, and an answer that
    came from the knowledge base rates the article the lookup finds.
   */
  method SubmitFeedback(message: ChatMessage, rating: string, store: ArticleStore, found: Option<string>)
    modifies message, store
    ensures message.helpful == HelpfulFlag(rating)
    ensures message.text == old(message.text) && message.source == old(message.source)
    ensures store.counters == if old(message.source) == KnowledgeBaseSource then AfterRating(old(store.counters), found, rating)
                              else old(store.counters)
  {
    message.helpful := HelpfulFlag(rating);
    if message.source == KnowledgeBaseSource {
      store.UpdateKbStats(found, rating);
    }
  }

  /** The fields of a Chat Session record that query reads or sets. */
  class ChatSession {
    var messageCount: int
    var lastMessage: string
    var contextDoctype: string

    constructor(contextDoctype: string)
      ensures messageCount == 0 && lastMessage == "" && this.contextDoctype == contextDoctype
    {
      messageCount := 0;
      lastMessage := "";
      this.contextDoctype := contextDoctype;
    }

    /** One user message and one bot reply were stored. */
    method RecordExchange(message: string)
      modifies this
      ensures messageCount == old(messageCount) + 2
      ensures lastMessage == Take(message, 200)
      ensures contextDoctype == old(contextDoctype)
    {
      messageCount := messageCount + 2;
      lastMessage := Take(message, 200);
    }
  }

  /** `detect_language(message) if language == "Auto Detect" else language` */
  function ResolvedLanguage(message: string, language: string): (l: string)
    ensures language != "Auto Detect" ==> l == language
    ensures language == "Auto Detect" ==> l == Urdu || l == English
  {
    if language == "Auto Detect" then DetectLanguage(message) else language
  }

  /** get_ai_model runs exactly when the AI stage is reached and routes to the local model. */
  predicate ModelConsulted(message: string, candidates: seq<Article>, settings: Option<Settings>) {
    !ConfidentMatch(Search(message, candidates)) && AiEnabled(settings) && |Search(message, candidates)| > 0 &&
    Route(ProviderName(settings.value)) == LocalTransformers
  }

  /**
    What get_response resolves inside query: the language and intent come
    from the message, and the model is ready when it is consulted and the
    cache step yields one.
   */
  function QueryResolution(message: string, contextDoctype: string, language: string, candidates: seq<Article>, settings: Option<Settings>,
                           cache: Option<ModelHandle>, transformersAvailable: bool, loaded: Option<ModelHandle>, reply: Option<string>): Resolution
  {
    var ready := ModelConsulted(message, candidates, settings) && CacheStep(cache, transformersAvailable, loaded).1.Some?;
    GetResponse(message, DetectIntent(message), contextDoctype, ResolvedLanguage(message, language), candidates, settings, ready, reply)
  }

  /** The get_ai_model call the AI stage makes when it routes to the local model; whether it yields a model. */
  method LoadModelIfRouted(cache: ModelCache, consulted: bool, transformersAvailable: bool, loaded: Option<ModelHandle>) returns (modelReady: bool)
    modifies cache
    ensures modelReady == (consulted && CacheStep(old(cache.cache), transformersAvailable, loaded).1.Some?)
    ensures cache.cache == if consulted then CacheStep(old(cache.cache), transformersAvailable, loaded).0 else old(cache.cache)
  {
    modelReady := false;
    if consulted {
      var model := cache.GetAiModel(transformersAvailable, loaded);
      modelReady := model.Some?;
    }
  }

  /** The writes query makes once the answer is known: the usage count, then the session counters. */
  method Commit(store: ArticleStore, session: ChatSession, usage: Option<UsageUpdate>, message: string)
    modifies store, session
    ensures store.counters == if usage.Some? then WithUsage(old(store.counters), usage.value) else old(store.counters)
    ensures session.messageCount == old(session.messageCount) + 2
    ensures session.lastMessage == Take(message, 200)
    ensures session.contextDoctype == old(session.contextDoctype)
  {
    if usage.Some? {
      store.ApplyUsage(usage.value);
    }
    session.RecordExchange(message);
  }

  /**
    query, for an existing session. `candidates` are the articles the store
    offers the search, `transformersAvailable` and `loaded` stand for the
    import of transformers and the pipeline load, and `reply` for the
    provider's output.
   */
  method Query(message: string, session: ChatSession, language: string, candidates: seq<Article>, settings: Option<Settings>,
               store: ArticleStore, cache: ModelCache, transformersAvailable: bool, loaded: Option<ModelHandle>, reply: Option<string>)
    returns (answer: Answer)
    modifies session, store, cache
    ensures answer == QueryResolution(message, old(session.contextDoctype), language, candidates, settings, old(cache.cache), transformersAvailable, loaded, reply).answer
    ensures var u := QueryResolution(message, old(session.contextDoctype), language, candidates, settings, old(cache.cache), transformersAvailable, loaded, reply).usage;
      store.counters == if u.Some? then WithUsage(old(store.counters), u.value) else old(store.counters)
    ensures cache.cache == if ModelConsulted(message, candidates, settings) then CacheStep(old(cache.cache), transformersAvailable, loaded).0
                           else old(cache.cache)
    ensures session.messageCount == old(session.messageCount) + 2
    ensures session.lastMessage == Take(message, 200)
    ensures session.contextDoctype == old(session.contextDoctype)
  {
    var detectedLanguage := ResolvedLanguage(message, language);
    var intent := DetectIntent(message);
    var modelReady := LoadModelIfRouted(cache, ModelConsulted(message, candidates, settings), transformersAvailable, loaded);
    assert session.contextDoctype == old(session.contextDoctype) && store.counters == old(store.counters);
    var response := GetResponse(message, intent, session.contextDoctype, detectedLanguage, candidates, settings, modelReady, reply);
    assert response == QueryResolution(message, old(session.contextDoctype), language, candidates, settings, old(cache.cache), transformersAvailable, loaded, reply);
    Commit(store, session, response.usage, message);
    answer := response.answer;
  }

  // ---------------------------------------------------------------------
  // Properties of the counters

  /** One rating changes exactly one counter of one article, by one, and leaves the usage count alone. */
  lemma RatingBumpsOneCounter(counters: map<string, Counters>, name: string, rating: string)
    requires name in counters
    ensures var c := counters[name];
      var d := AfterRating(counters, Some(name), rating)[name];
      d.usage == c.usage && d.helpful + d.unhelpful == c.helpful + c.unhelpful + 1 &&
      (d.helpful == c.helpful + 1 <==> rating == "Helpful")
  {
  }

  /** A rating that finds no article changes nothing. */
  lemma UnmatchedRatingChangesNothing(counters: map<string, Counters>, rating: string)
    ensures AfterRating(counters, None, rating) == counters
  {
  }

  /** A knowledge-base answer raises the answering article's usage count by one; no other answer touches the store. */
  lemma UsageCountedOnce(message: string, intent: string, contextDoctype: string, language: string, candidates: seq<Article>,
                         settings: Option<Settings>, modelReady: bool, reply: Option<string>, counters: map<string, Counters>)
    requires ConfidentMatch(Search(message, candidates))
    requires Search(message, candidates)[0].article.name in counters
    requires counters[Search(message, candidates)[0].article.name].usage == Search(message, candidates)[0].article.usageCount
    ensures var top := Search(message, candidates)[0].article.name;
      var r := GetResponse(message, intent, contextDoctype, language, candidates, settings, modelReady, reply);
      WithUsage(counters, r.usage.value)[top] == counters[top].(usage := counters[top].usage + 1)
  {
  }
}

=== FILE: ChatnextSettings.dfy ===
/**
  The Chatnext Settings single document: the fields the core reads, and the
  range checks `validate` applies before the document is saved.
 */
module ChatnextSettings {

  /**
    The fields of Chatnext Settings the core reads. A field left unset reads
    as 0, 0.0, "" or false, which is what Python's truthiness tests see.
    For the API keys only whether one is set matters.
   */
  datatype Settings = Settings(
    enableAi: bool,
    provider: string,
    temperature: real,
    maxTokens: int,
    sessionTimeout: int,
    hasOpenRouterKey: bool,
    hasGeminiKey: bool,
    hasDeepSeekKey: bool)

  datatype Verdict = Accepted | Rejected(message: string)

  const TemperatureMessage := "AI Temperature must be between 0.1 and 1.0"
  const MaxTokensMessage := "Max Response Length must be between 50 and 2000"
  const TimeoutMessage := "Session Timeout must be between 5 and 240 minutes"

  /**
    validate: the temperature check, then the token check, then the timeout
    check; the first one that fails raises its message and ends validation.
    The AI checks apply only with AI responses enabled and a value set; the
    timeout check applies whenever a timeout is set. All bounds are inclusive.
   */
  function Validate(s: Settings): (v: Verdict)
    ensures v == Rejected(TemperatureMessage) <==>
      s.enableAi && s.temperature != 0.0 && !(0.1 <= s.temperature <= 1.0)
    ensures v == Rejected(MaxTokensMessage) <==>
      v != Rejected(TemperatureMessage) && s.enableAi && s.maxTokens != 0 && (s.maxTokens < 50 || s.maxTokens > 2000)
    ensures v == Rejected(TimeoutMessage) <==>
      v != Rejected(TemperatureMessage) && v != Rejected(MaxTokensMessage) &&
      s.sessionTimeout != 0 && (s.sessionTimeout < 5 || s.sessionTimeout > 240)
    ensures v == Accepted || v == Rejected(TemperatureMessage) || v == Rejected(MaxTokensMessage) || v == Rejected(TimeoutMessage)
  {
    if s.enableAi && s.temperature != 0.0 && !(0.1 <= s.temperature <= 1.0) then
      Rejected(TemperatureMessage)
    else if s.enableAi && s.maxTokens != 0 && (s.maxTokens < 50 || s.maxTokens > 2000) then
      Rejected(MaxTokensMessage)
    else if s.sessionTimeout != 0 && (s.sessionTimeout < 5 || s.sessionTimeout > 240) then
      Rejected(TimeoutMessage)
    else
      Accepted
  }

  /** With AI responses disabled, the temperature and token fields are never looked at. */
  lemma DisabledAiIgnoresAiFields(s: Settings, temperature: real, maxTokens: int)
    requires !s.enableAi
    ensures Validate(s) != Rejected(TemperatureMessage) && Validate(s) != Rejected(MaxTokensMessage)
    ensures Validate(s.(temperature := temperature, maxTokens := maxTokens)) == Validate(s)
  {
  }

  /** The end points of every range are accepted. */
  lemma BoundsInclusive(s: Settings)
    requires s.temperature == 0.1 || s.temperature == 1.0
    requires s.maxTokens == 50 || s.maxTokens == 2000
    requires s.sessionTimeout == 5 || s.sessionTimeout == 240
    ensures Validate(s) == Accepted
  {
  }

  /** Unset values are not checked, whatever the AI flag says. */
  lemma UnsetValuesAccepted(s: Settings)
    requires s.temperature == 0.0 && s.maxTokens == 0 && s.sessionTimeout == 0
    ensures Validate(s) == Accepted
  {
  }

  /** A bad temperature hides a bad token count and a bad timeout: the first failing check decides. */
  lemma TemperatureCheckedFirst(s: Settings)
    requires s.enableAi && s.temperature > 1.0
    ensures Validate(s) == Rejected(TemperatureMessage)
    ensures Validate(s.(maxTokens := 1, sessionTimeout := 1)) == Rejected(TemperatureMessage)
  {
  }

  /** The timeout check does not depend on the AI flag. */
  lemma TimeoutIndependentOfAi(s: Settings)
    requires s.sessionTimeout != 0 && (s.sessionTimeout < 5 || s.sessionTimeout > 240)
    ensures Validate(s.(enableAi := false)) == Rejected(TimeoutMessage)
  {
  }
}

=== FILE: Classifiers.dfy ===
/** The two text classifiers of the query handler: script-based language detection and keyword intent detection. */
module Classifiers {
  import opened Text

  const Urdu := "Urdu"
  const English := "English"
  const General := "general"

  /** The character class [؀-ۿ]: the Arabic block, which Urdu is written in. */
  predicate IsArabicScript(c: char) { '\U{0600}' <= c <= '\U{06FF}' }

  /** The character class [a-zA-Z]. */
  predicate IsLatinLetter(c: char) { 'a' <= c <= 'z' || 'A' <= c <= 'Z' }

  /** How many characters of `s` satisfy `p` (the length of re.findall over a one-character class). */
  function Count(s: string, p: char -> bool): nat {
    if |s| == 0 then 0 else (if p(s[0]) then 1 else 0) + Count(s[1..], p)
  }

  lemma {:induction false} CountAppend(s: string, t: string, p: char -> bool)
    ensures Count(s + t, p) == Count(s, p) + Count(t, p)
  {
    if |s| == 0 {
      assert s + t == t;
    } else {
      assert (s + t)[1..] == s[1..] + t;
      CountAppend(s[1..], t, p);
    }
  }

  lemma {:induction false} CountAll(s: string, p: char -> bool)
    requires forall i :: 0 <= i < |s| ==> p(s[i])
    ensures Count(s, p) == |s|
  {
    if |s| > 0 {
      CountAll(s[1..], p);
    }
  }

  lemma {:induction false} CountNone(s: string, p: char -> bool)
    requires forall i :: 0 <= i < |s| ==> !p(s[i])
    ensures Count(s, p) == 0
  {
    if |s| > 0 {
      CountNone(s[1..], p);
    }
  }

  /** detect_language: "Urdu" exactly when Arabic-script characters outnumber Latin letters. */
  function DetectLanguage(text: string): (lang: string)
    ensures lang == Urdu || lang == English
    ensures lang == Urdu <==> Count(text, IsArabicScript) > Count(text, IsLatinLetter)
  {
    if Count(text, IsArabicScript) > Count(text, IsLatinLetter) then Urdu else English
  }

  /** Empty text and ties are English. */
  lemma DetectLanguageTie(text: string)
    requires Count(text, IsArabicScript) == Count(text, IsLatinLetter)
    ensures DetectLanguage(text) == English
  {
  }

  /** Monotonicity: appending Arabic-script characters to Urdu text keeps it Urdu. */
  lemma UrduMonotone(text: string, more: string)
    requires DetectLanguage(text) == Urdu
    requires forall i :: 0 <= i < |more| ==> IsArabicScript(more[i])
    ensures DetectLanguage(text + more) == Urdu
  {
    CountAppend(text, more, IsArabicScript);
    CountAppend(text, more, IsLatinLetter);
    CountAll(more, IsArabicScript);
    CountNone(more, IsLatinLetter);
  }

  /** Monotonicity the other way: appending Latin letters to English text keeps it English. */
  lemma EnglishMonotone(text: string, more: string)
    requires DetectLanguage(text) == English
    requires forall i :: 0 <= i < |more| ==> IsLatinLetter(more[i])
    ensures DetectLanguage(text + more) == English
  {
    CountAppend(text, more, IsArabicScript);
    CountAppend(text, more, IsLatinLetter);
    CountNone(more, IsArabicScript);
    CountAll(more, IsLatinLetter);
  }

  /** Characters of neither class (digits, spaces, punctuation) never change the verdict. */
  lemma NeutralCharactersIgnored(text: string, more: string)
    requires forall i :: 0 <= i < |more| ==> !IsArabicScript(more[i]) && !IsLatinLetter(more[i])
    ensures DetectLanguage(text + more) == DetectLanguage(text)
  {
    CountAppend(text, more, IsArabicScript);
    CountAppend(text, more, IsLatinLetter);
    CountNone(more, IsArabicScript);
    CountNone(more, IsLatinLetter);
  }

  /** The intent table of detect_intent, in declaration order (a Python dict keeps insertion order). */
  const IntentTable: seq<(string, seq<string>)> := [
    ("how_to", ["how to", "how do i", "how can i", "kaise", "kaisay"]),
    ("what_is", ["what is", "what are", "define", "kya hai", "kia hai"]),
    ("create", ["create", "new", "add", "banao", "banana"]),
    ("error", ["error", "issue", "problem", "not working", "masla", "kharabi"]),
    ("find", ["find", "search", "where", "kahan", "dhundo"]),
    ("report", ["report", "list", "show me", "dikhao", "report"]),
    ("setup", ["setup", "configure", "settings", "setting", "configuration"])
  ]

  /** Some keyword of the list occurs in `text`. */
  predicate AnyKeyword(keywords: seq<string>, text: string) {
    exists k :: 0 <= k < |keywords| && Contains(text, keywords[k])
  }

  /** Index of the first row of `table` with a keyword in `text`, or |table| when there is none. */
  function FirstMatch(table: seq<(string, seq<string>)>, text: string): (idx: nat)
    ensures idx <= |table|
    ensures idx < |table| ==> AnyKeyword(table[idx].1, text)
    ensures forall j :: 0 <= j < idx ==> !AnyKeyword(table[j].1, text)
  {
    if |table| == 0 then 0
    else if AnyKeyword(table[0].1, text) then 0
    else 1 + FirstMatch(table[1..], text)
  }

  /** detect_intent: the first intent in table order with a keyword in the lower-cased message, else "general". */
  function DetectIntent(message: string): (intent: string)
    ensures intent == General <==> forall i :: 0 <= i < |IntentTable| ==> !AnyKeyword(IntentTable[i].1, Lower(message))
    ensures intent != General ==>
      exists i :: 0 <= i < |IntentTable| && IntentTable[i].0 == intent && AnyKeyword(IntentTable[i].1, Lower(message)) &&
        forall j :: 0 <= j < i ==> !AnyKeyword(IntentTable[j].1, Lower(message))
  {
    var idx := FirstMatch(IntentTable, Lower(message));
    if idx < |IntentTable| then IntentTable[idx].0 else General
  }

  /** Table order decides between matching intents: a message with a how-to phrase is "how_to" whatever else it holds. */
  lemma HowToWins(message: string, k: nat)
    requires k < |IntentTable[0].1| && Contains(Lower(message), IntentTable[0].1[k])
    ensures DetectIntent(message) == "how_to"
  {
  }

  lemma LowerOfLower(s: string)
    requires forall i :: 0 <= i < |s| ==> !('A' <= s[i] <= 'Z')
    ensures Lower(s) == s
  {
  }

  /** "how to fix error" holds keywords of both "how_to" and "error"; the earlier row wins. */
  lemma HowToFixError()
    ensures AnyKeyword(IntentTable[3].1, Lower("how to fix error"))
    ensures DetectIntent("how to fix error") == "how_to"
  {
    var m := "how to fix error";
    LowerOfLower(m);
    assert IsPrefix("how to", m);
    HowToWins(m, 0);
    assert m[11..16] == "error";
    ContainsAt(m, "error", 11);
    assert Contains(Lower(m), IntentTable[3].1[0]);
  }
}

=== FILE: KnowledgeBase.dfy ===
/**
  The scoring and ranking half of search_knowledge_base. The record store has
  already applied the active/category/language filters and the page limit, so
  the candidates arrive as a list in store order.
 */
module KnowledgeBase {
  import opened Text
  import opened Sorting

  /** The fields of a Knowledge Base Article the core reads. Text fields are always strings: a NULL field of the store is not represented. */
  datatype Article = Article(
    name: string,
    title: string,
    question: string,
    answer: string,
    answerUrdu: string,
    keywords: string,
    usageCount: int)

  /** An article with the relevance_score the search attaches to it. */
  datatype Scored = Scored(article: Article, score: nat)

  /** The text a query is matched against: title, question and keywords, lower-cased. */
  function ArticleText(a: Article): string {
    Lower(a.title + " " + a.question + " " + a.keywords)
  }

  /** The query's keywords: the lower-cased query split on whitespace. */
  function QueryTokens(query: string): seq<string> {
    Split(Lower(query))
  }

  /** Number of token positions whose token occurs in `text`; a repeated token counts again. */
  function Hits(tokens: seq<string>, text: string): (n: nat)
    ensures n <= |tokens|
  {
    if |tokens| == 0 then 0
    else Hits(tokens[..|tokens| - 1], text) + (if Contains(text, tokens[|tokens| - 1]) then 1 else 0)
  }

  function ScoreOf(tokens: seq<string>, a: Article): nat {
    Hits(tokens, ArticleText(a))
  }

  /** The candidates that score above zero, in candidate order, each with its score. */
  function Positives(tokens: seq<string>, candidates: seq<Article>): seq<Scored> {
    if |candidates| == 0 then []
    else
      var last := candidates[|candidates| - 1];
      Positives(tokens, candidates[..|candidates| - 1]) +
        (if ScoreOf(tokens, last) > 0 then [Scored(last, ScoreOf(tokens, last))] else [])
  }

  /** Sort key for `sort(key=relevance_score, reverse=True)`. */
  function NegScore(x: Scored): int { -(x.score as int) }

  /** `[a.get('title') for a in articles]` */
  function Titles(articles: seq<Scored>): (r: seq<string>)
    ensures |r| == |articles|
    ensures forall i :: 0 <= i < |r| ==> r[i] == articles[i].article.title
  {
    seq(|articles|, i requires 0 <= i < |articles| => articles[i].article.title)
  }

  /** What search_knowledge_base returns for `query` over the store's `candidates`. */
  function Search(query: string, candidates: seq<Article>): seq<Scored> {
    SortBy(Positives(QueryTokens(query), candidates), NegScore)
  }

  /** The loops of search_knowledge_base: score every candidate, keep the positive ones, sort. */
  method SearchKnowledgeBase(query: string, articles: seq<Article>) returns (scoredArticles: seq<Scored>)
    ensures scoredArticles == Search(query, articles)
  {
    var queryKeywords := Split(Lower(query));
    scoredArticles := [];
    var i := 0;
    while i < |articles|
      invariant 0 <= i <= |articles|
      invariant scoredArticles == Positives(queryKeywords, articles[..i])
    {
      var article := articles[i];
      var articleText := ArticleText(article);
      var score := 0;
      var j := 0;
      while j < |queryKeywords|
        invariant 0 <= j <= |queryKeywords|
        invariant score == Hits(queryKeywords[..j], articleText)
      {
        if Contains(articleText, queryKeywords[j]) {
          score := score + 1;
        }
        assert queryKeywords[..j + 1][..j] == queryKeywords[..j];
        j := j + 1;
      }
      assert queryKeywords[..j] == queryKeywords;
      if score > 0 {
        scoredArticles := scoredArticles + [Scored(article, score)];
      }
      assert articles[..i + 1][..i] == articles[..i];
      i := i + 1;
    }
    assert articles[..i] == articles;
    scoredArticles := SortBy(scoredArticles, NegScore);
  }

  // ---------------------------------------------------------------------
  // Properties of the scores

  /** Scores add up over a split of the token list, so repeated tokens are counted each time. */
  lemma {:induction false} HitsAppend(a: seq<string>, b: seq<string>, text: string)
    ensures Hits(a + b, text) == Hits(a, text) + Hits(b, text)
    decreases |b|
  {
    if |b| == 0 {
      assert a + b == a;
    } else {
      var b' := b[..|b| - 1];
      assert (a + b)[..|a + b| - 1] == a + b';
      HitsAppend(a, b', text);
    }
  }

  /** A token found in the text scores once more for every further copy of it. */
  lemma RepeatedTokenCountsTwice(tokens: seq<string>, t: string, text: string)
    requires Contains(text, t)
    ensures Hits(tokens + [t, t], text) == Hits(tokens, text) + 2
  {
    HitsAppend(tokens, [t, t], text);
    assert [t, t][..1] == [t];
    assert [t][..0] == [];
  }

  /** Every member of Positives carries its own score, which lies in 1..|tokens|, and comes from the candidates. */
  lemma {:induction false} PositivesMembers(tokens: seq<string>, candidates: seq<Article>)
    ensures forall x :: x in Positives(tokens, candidates) ==>
      x.article in candidates && x.score == ScoreOf(tokens, x.article) && 1 <= x.score <= |tokens|
  {
    if |candidates| > 0 {
      var init := candidates[..|candidates| - 1];
      PositivesMembers(tokens, init);
      forall x | x in Positives(tokens, init) ensures x.article in candidates {
        assert x.article in init;
      }
    }
  }

  /** Every candidate that scores above zero is in Positives. */
  lemma {:induction false} PositivesComplete(tokens: seq<string>, candidates: seq<Article>)
    ensures forall a :: a in candidates && ScoreOf(tokens, a) > 0 ==> Scored(a, ScoreOf(tokens, a)) in Positives(tokens, candidates)
  {
    if |candidates| > 0 {
      var init := candidates[..|candidates| - 1];
      PositivesComplete(tokens, init);
      forall a | a in candidates && ScoreOf(tokens, a) > 0
        ensures Scored(a, ScoreOf(tokens, a)) in Positives(tokens, candidates)
      {
        if a != candidates[|candidates| - 1] {
          assert candidates == init + [candidates[|candidates| - 1]];
          assert a in init;
        }
      }
    }
  }

  /** The search returns exactly the positively scored candidates: each with its own score in 1..|tokens|, and all of them. */
  lemma SearchMembers(query: string, candidates: seq<Article>)
    ensures forall x :: x in Search(query, candidates) ==>
      x.article in candidates && x.score == ScoreOf(QueryTokens(query), x.article) && 1 <= x.score <= |QueryTokens(query)|
    ensures forall a :: a in candidates && ScoreOf(QueryTokens(query), a) > 0 ==>
      Scored(a, ScoreOf(QueryTokens(query), a)) in Search(query, candidates)
  {
    var tokens := QueryTokens(query);
    var p := Positives(tokens, candidates);
    SortPermutes(p, NegScore);
    PositivesMembers(tokens, candidates);
    PositivesComplete(tokens, candidates);
    forall x | x in Search(query, candidates) ensures x in p {
      assert x in multiset(Search(query, candidates));
    }
    forall a | a in candidates && ScoreOf(tokens, a) > 0 ensures Scored(a, ScoreOf(tokens, a)) in Search(query, candidates) {
      assert Scored(a, ScoreOf(tokens, a)) in multiset(p);
    }
  }

  /** A candidate that scores zero never appears in the result. */
  lemma ZeroScoreExcluded(query: string, candidates: seq<Article>, a: Article)
    requires ScoreOf(QueryTokens(query), a) == 0
    ensures forall x :: x in Search(query, candidates) ==> x.article != a
  {
    SearchMembers(query, candidates);
  }

  /** With no token found in any candidate, the search is empty. */
  lemma NoOverlapEmpty(query: string, candidates: seq<Article>)
    requires forall a, t :: a in candidates && t in QueryTokens(query) ==> !Contains(ArticleText(a), t)
    ensures Search(query, candidates) == []
  {
    var tokens := QueryTokens(query);
    forall a | a in candidates ensures ScoreOf(tokens, a) == 0 {
      HitsNone(tokens, ArticleText(a));
    }
    PositivesNone(tokens, candidates);
    SortPermutes(Positives(tokens, candidates), NegScore);
    assert |multiset(Search(query, candidates))| == 0;
  }

  lemma {:induction false} PositivesNone(tokens: seq<string>, candidates: seq<Article>)
    requires forall a :: a in candidates ==> ScoreOf(tokens, a) == 0
    ensures Positives(tokens, candidates) == []
  {
    if |candidates| > 0 {
      var init := candidates[..|candidates| - 1];
      assert forall a :: a in init ==> a in candidates;
      PositivesNone(tokens, init);
    }
  }

  lemma {:induction false} HitsNone(tokens: seq<string>, text: string)
    requires forall t :: t in tokens ==> !Contains(text, t)
    ensures Hits(tokens, text) == 0
  {
    if |tokens| > 0 {
      HitsNone(tokens[..|tokens| - 1], text);
    }
  }

  /** The result is a permutation of the positively scored candidates. */
  lemma SearchPermutes(query: string, candidates: seq<Article>)
    ensures multiset(Search(query, candidates)) == multiset(Positives(QueryTokens(query), candidates))
  {
    SortPermutes(Positives(QueryTokens(query), candidates), NegScore);
  }

  /** The result is ordered by non-increasing score. */
  lemma SearchSorted(query: string, candidates: seq<Article>)
    ensures forall i, j :: 0 <= i < j < |Search(query, candidates)| ==>
      Search(query, candidates)[i].score >= Search(query, candidates)[j].score
  {
    SortSorted(Positives(QueryTokens(query), candidates), NegScore);
  }

  /** Among equal scores the result keeps the candidates' store order. */
  lemma SearchStable(query: string, candidates: seq<Article>, score: nat)
    ensures WithKey(Search(query, candidates), NegScore, -(score as int)) == WithKey(Positives(QueryTokens(query), candidates), NegScore, -(score as int))
  {
    SortStable(Positives(QueryTokens(query), candidates), NegScore, -(score as int));
  }

  /** The first result has the highest score of any candidate. */
  lemma TopIsBest(query: string, candidates: seq<Article>)
    requires |Search(query, candidates)| > 0
    ensures forall a :: a in candidates ==> ScoreOf(QueryTokens(query), a) <= Search(query, candidates)[0].score
  {
    var r := Search(query, candidates);
    SearchMembers(query, candidates);
    SearchSorted(query, candidates);
    forall a | a in candidates ensures ScoreOf(QueryTokens(query), a) <= r[0].score {
      var s := ScoreOf(QueryTokens(query), a);
      if s > 0 {
        var x := Scored(a, s);
        assert x in r;
        var k :| 0 <= k < |r| && r[k] == x;
        if k > 0 {
          assert r[0].score >= r[k].score;
        }
      }
    }
  }
}

=== FILE: Markdown.dfy ===
/**
  remove_markdown_formatting: a fixed sequence of re.sub passes, then
  collapsing of blank-line runs and strip(). Each pass is modelled by what the
  regex engine does with that pattern: scan left to right, and at each position
  where the pattern matches, replace the match and resume after it. For each
  pattern below, the greedy or lazy quantifiers admit at most one match length
  at a position, so a pass is fully described by a function giving that length
  (0 for no match).
 */
module Markdown {
  import opened Wrappers
  import opened Text

  predicate IsHash(c: char) { c == '#' }
  predicate IsNewline(c: char) { c == '\n' }
  /** [\-\*_] */
  predicate IsRuleChar(c: char) { c == '-' || c == '*' || c == '_' }
  /** [\-\*] */
  predicate IsBulletChar(c: char) { c == '-' || c == '*' }
  /** \d on a str pattern, for the ASCII digits and the two Arabic-Indic digit blocks. */
  predicate IsDigit(c: char) { '0' <= c <= '9' || '\U{0660}' <= c <= '\U{0669}' || '\U{06F0}' <= c <= '\U{06F9}' }
  predicate NotBacktick(c: char) { c != '`' }
  predicate NotCloseBracket(c: char) { c != ']' }
  predicate NotCloseParen(c: char) { c != ')' }

  /**
    One re.sub pass. Where `matchLen` reports a match of length n > 0 at the
    current position, the n characters are replaced by `replace` of the
    remaining text and the scan resumes after them. An `anchored` pattern
    starts with ^ under re.MULTILINE, so it is tried only at the start of the
    text or just after a '\n' of the original text.
   */
  function Rewrite(s: string, atLineStart: bool, anchored: bool, matchLen: string -> nat, replace: string -> string): string
    requires forall t :: matchLen(t) <= |t|
    decreases |s|
  {
    if |s| == 0 then []
    else if (atLineStart || !anchored) && matchLen(s) > 0 then
      var n := matchLen(s);
      replace(s) + Rewrite(s[n..], s[n - 1] == '\n', anchored, matchLen, replace)
    else [s[0]] + Rewrite(s[1..], s[0] == '\n', anchored, matchLen, replace)
  }

  /** The replacement '' of the deleting passes. */
  function Deleted(s: string): string { "" }

  // ---------------------------------------------------------------------
  // The match length of each pattern at the start of `s`

  /** ^#{1,6}\s+ : one to six '#' and then at least one whitespace character, all of the whitespace run. */
  function HeaderLength(s: string): (n: nat)
    ensures n <= |s|
  {
    var h := Span(s, IsHash);
    if 1 <= h <= 6 then
      var w := Span(s[h..], IsSpace);
      if w >= 1 then h + w else 0
    else 0
  }

  /**
    The lazy group of d(.+?)d, searched from offset k of the text after the
    opening `d`: the smallest k with no '\n' among the first k characters and
    `d` right after them; 0 when there is none.
   */
  function LazyClose(rest: string, d: string, k: nat): (r: nat)
    requires 1 <= k
    ensures r == 0 || (k <= r && r + |d| <= |rest| && IsPrefix(d, rest[r..]))
    decreases |rest| + 1 - k
  {
    if k > |rest| || rest[k - 1] == '\n' then 0
    else if IsPrefix(d, rest[k..]) then k
    else LazyClose(rest, d, k + 1)
  }

  /** d(.+?)d for the delimiters "**", "__", "*" and "_". */
  function EmphasisLength(s: string, d: string): (n: nat)
    ensures n <= |s|
    ensures n > 0 ==> |d| > 0 && n > 2 * |d|
  {
    if |d| > 0 && IsPrefix(d, s) then
      var k := LazyClose(s[|d|..], d, 1);
      if k > 0 then 2 * |d| + k else 0
    else 0
  }

  function EmphasisGroup(s: string, d: string): string {
    var n := EmphasisLength(s, d);
    if n > 0 then s[|d|..n - |d|] else ""
  }

  /** ^[\-\*_]{3,}$ : a run of three or more rule characters that reaches the end of the line. */
  function RuleLength(s: string): (n: nat)
    ensures n <= |s|
  {
    var r := Span(s, IsRuleChar);
    if r >= 3 && (r == |s| || s[r] == '\n') then r else 0
  }

  /** `([^`]+)` */
  function CodeLength(s: string): (n: nat)
    ensures n <= |s|
  {
    if |s| > 0 && s[0] == '`' then
      var j := Span(s[1..], NotBacktick);
      if j >= 1 && j + 1 < |s| then j + 2 else 0
    else 0
  }

  function CodeGroup(s: string): string {
    var n := CodeLength(s);
    if n > 0 then s[1..n - 1] else ""
  }

  /** \[([^\]]+)\]\([^\)]+\) */
  function LinkLength(s: string): (n: nat)
    ensures n <= |s|
    ensures n > 0 ==> 1 + Span(s[1..], NotCloseBracket) <= |s|
  {
    if |s| > 0 && s[0] == '[' then
      var j := Span(s[1..], NotCloseBracket);
      if j >= 1 && j + 2 < |s| && s[j + 2] == '(' then
        var m := Span(s[j + 3..], NotCloseParen);
        if m >= 1 && j + 3 + m < |s| then j + m + 4 else 0
      else 0
    else 0
  }

  function LinkGroup(s: string): string {
    if LinkLength(s) > 0 then s[1..1 + Span(s[1..], NotCloseBracket)] else ""
  }

  /** ^\s*[\-\*]\s+ : leading whitespace (newlines included), a bullet, and at least one whitespace character. */
  function BulletLength(s: string): (n: nat)
    ensures n <= |s|
  {
    var w := Span(s, IsSpace);
    if w < |s| && IsBulletChar(s[w]) then
      var v := Span(s[w + 1..], IsSpace);
      if v >= 1 then w + 1 + v else 0
    else 0
  }

  /** ^\s*\d+\.\s+ */
  function NumberLength(s: string): (n: nat)
    ensures n <= |s|
  {
    var w := Span(s, IsSpace);
    var d := Span(s[w..], IsDigit);
    if d >= 1 && w + d < |s| && s[w + d] == '.' then
      var v := Span(s[w + d + 1..], IsSpace);
      if v >= 1 then w + d + 1 + v else 0
    else 0
  }

  // ---------------------------------------------------------------------
  // The passes

  function StripHeaders(s: string): string { Rewrite(s, true, true, HeaderLength, Deleted) }

  function EmphasisMatcher(d: string): string -> nat { t => EmphasisLength(t, d) }

  function EmphasisReplacer(d: string): string -> string { t => EmphasisGroup(t, d) }

  function StripEmphasis(s: string, d: string): string {
    Rewrite(s, true, false, EmphasisMatcher(d), EmphasisReplacer(d))
  }

  function StripRules(s: string): string { Rewrite(s, true, true, RuleLength, Deleted) }

  function StripInlineCode(s: string): string { Rewrite(s, true, false, CodeLength, CodeGroup) }

  function StripLinks(s: string): string { Rewrite(s, true, false, LinkLength, LinkGroup) }

  function StripBullets(s: string): string { Rewrite(s, true, true, BulletLength, Deleted) }

  function StripNumbers(s: string): string { Rewrite(s, true, true, NumberLength, Deleted) }

  /** re.sub(r'\|', '', s) */
  function RemovePipes(s: string): (r: string)
    ensures forall i :: 0 <= i < |r| ==> r[i] != '|'
    ensures |s| == 1 && s[0] == '|' ==> r == []
    ensures |s| == 1 && s[0] != '|' ==> r == s
  {
    if |s| == 0 then [] else (if s[0] == '|' then [] else [s[0]]) + RemovePipes(s[1..])
  }

  /** The pass works character by character: removing pipes from a + b is removing them from a, then from b. */
  lemma {:induction false} RemovePipesAppend(a: string, b: string)
    ensures RemovePipes(a + b) == RemovePipes(a) + RemovePipes(b)
  {
    if |a| == 0 {
      assert a + b == b;
    } else {
      assert (a + b)[1..] == a[1..] + b;
      RemovePipesAppend(a[1..], b);
    }
  }

  /** re.sub(r'\n{3,}', '\n\n', s): every run of three or more newlines becomes two. */
  function CollapseBlankLines(s: string): string
    decreases |s|
  {
    if |s| == 0 then []
    else if s[0] == '\n' then
      var r := Span(s, IsNewline);
      (if r >= 3 then "\n\n" else s[..r]) + CollapseBlankLines(s[r..])
    else [s[0]] + CollapseBlankLines(s[1..])
  }

  /** The re.sub passes of remove_markdown_formatting, in the order the function runs them. */
  function Passes(text: string): string {
    var headers := StripHeaders(text);
    var emphasis := StripEmphasis(StripEmphasis(StripEmphasis(StripEmphasis(headers, "**"), "__"), "*"), "_");
    var inline := StripLinks(StripInlineCode(StripRules(emphasis)));
    RemovePipes(StripNumbers(StripBullets(inline)))
  }

  /** The last two steps: blank-line runs collapsed, then strip(). */
  function Finish(piped: string): (r: string)
    requires forall i :: 0 <= i < |piped| ==> piped[i] != '|'
    ensures forall i :: 0 <= i < |r| ==> r[i] != '|'
    ensures !Contains(r, "\n\n\n")
    ensures r == [] || (!IsSpace(r[0]) && !IsSpace(r[|r| - 1]))
  {
    var collapsed := CollapseBlankLines(piped);
    var r := Strip(collapsed);
    var lo := Span(collapsed, IsSpace);
    var hi := lo + |r|;
    assert r == collapsed[lo..hi];
    CollapseKeepsNoPipe(piped);
    CollapseNoTriple(piped);
    SliceNoPipe(collapsed, lo, hi);
    SliceNoTriple(collapsed, lo, hi);
    NoTripleNotContains(collapsed[lo..hi]);
    r
  }

  /** No run of three newlines, and no whitespace at either end. */
  predicate Tidy(s: string) {
    !Contains(s, "\n\n\n") && (s == [] || (!IsSpace(s[0]) && !IsSpace(s[|s| - 1])))
  }

  /**
    remove_markdown_formatting. None and "" come back unchanged; any other
    result has no '|', no run of three newlines, and no whitespace at either end.
   */
  function RemoveMarkdownFormatting(text: Option<string>): (r: Option<string>)
    ensures r.Some? ==> Tidy(r.value)
    ensures r.Some? <==> text.Some?
    ensures text == Some("") ==> r == text
    ensures r.Some? ==> forall i :: 0 <= i < |r.value| ==> r.value[i] != '|'
    ensures r.Some? ==> !Contains(r.value, "\n\n\n")
    ensures r.Some? ==> r.value == [] || (!IsSpace(r.value[0]) && !IsSpace(r.value[|r.value| - 1]))
  {
    match text
    case None => None
    case Some(t) => if t == "" then text else Some(Finish(Passes(t)))
  }

  // ---------------------------------------------------------------------
  // Lemmas behind the output guarantees

  predicate TripleNewlineAt(s: string, i: nat)
    requires i + 3 <= |s|
  {
    s[i] == '\n' && s[i + 1] == '\n' && s[i + 2] == '\n'
  }

  predicate NoTripleNewline(s: string) {
    forall i: nat :: i + 3 <= |s| ==> !TripleNewlineAt(s, i)
  }

  lemma {:induction false} CollapseHead(s: string)
    ensures |s| == 0 ==> CollapseBlankLines(s) == []
    ensures |s| > 0 && s[0] != '\n' ==> |CollapseBlankLines(s)| > 0 && CollapseBlankLines(s)[0] == s[0]
  {
  }

  lemma {:induction false} CollapseNoTriple(s: string)
    ensures NoTripleNewline(CollapseBlankLines(s))
    decreases |s|
  {
    if |s| > 0 {
      var n, rest;
      if s[0] == '\n' {
        var r := Span(s, IsNewline);
        n := if r >= 3 then "\n\n" else s[..r];
        rest := s[r..];
        assert forall i :: 0 <= i < |n| ==> n[i] == '\n';
        assert |rest| > 0 ==> rest[0] != '\n';
      } else {
        n := [s[0]];
        rest := s[1..];
      }
      var t := CollapseBlankLines(rest);
      assert CollapseBlankLines(s) == n + t;
      CollapseNoTriple(rest);
      CollapseHead(rest);
      assert 1 <= |n| <= 2;
      assert s[0] == '\n' && |t| > 0 ==> t[0] != '\n';
      assert s[0] != '\n' ==> n[0] != '\n';
      var u := n + t;
      forall i: nat | i + 3 <= |u| ensures !TripleNewlineAt(u, i) {
        if i >= |n| {
          assert u[i] == t[i - |n|] && u[i + 1] == t[i - |n| + 1] && u[i + 2] == t[i - |n| + 2];
          assert !TripleNewlineAt(t, i - |n|);
        } else if s[0] == '\n' {
          assert u[|n|] == t[0];
        }
      }
    }
  }

  lemma {:induction false} CollapseKeepsNoPipe(s: string)
    requires forall i :: 0 <= i < |s| ==> s[i] != '|'
    ensures forall i :: 0 <= i < |CollapseBlankLines(s)| ==> CollapseBlankLines(s)[i] != '|'
    decreases |s|
  {
    if |s| > 0 {
      if s[0] == '\n' {
        var r := Span(s, IsNewline);
        CollapseKeepsNoPipe(s[r..]);
      } else {
        CollapseKeepsNoPipe(s[1..]);
      }
    }
  }

  lemma SliceNoPipe(s: string, lo: nat, hi: nat)
    requires lo <= hi <= |s|
    requires forall i :: 0 <= i < |s| ==> s[i] != '|'
    ensures forall i :: 0 <= i < |s[lo..hi]| ==> s[lo..hi][i] != '|'
  {
  }

  lemma SliceNoTriple(s: string, lo: nat, hi: nat)
    requires lo <= hi <= |s| && NoTripleNewline(s)
    ensures NoTripleNewline(s[lo..hi])
  {
    var u := s[lo..hi];
    forall i: nat | i + 3 <= |u| ensures !TripleNewlineAt(u, i) {
      assert !TripleNewlineAt(s, lo + i);
    }
  }

  /** The index form of "no three newlines in a row" is Python's `"\n\n\n" not in s`. */
  lemma NoTripleNotContains(s: string)
    requires NoTripleNewline(s)
    ensures !Contains(s, "\n\n\n")
  {
    if Contains(s, "\n\n\n") {
      var i := ContainsWitness(s, "\n\n\n");
      assert s[i..i + 3] == "\n\n\n";
      assert s[i] == s[i..i + 3][0];
      assert s[i + 1] == s[i..i + 3][1];
      assert s[i + 2] == s[i..i + 3][2];
      assert TripleNewlineAt(s, i);
      assert false;
    }
  }

  // ---------------------------------------------------------------------
  // What the passes do to particular shapes of text

  /** A match at the scan position is replaced and the scan resumes right after it. */
  lemma RewriteAt(p: string, rest: string, atLineStart: bool, anchored: bool, matchLen: string -> nat, replace: string -> string)
    requires forall t :: matchLen(t) <= |t|
    requires atLineStart || !anchored
    requires |p| > 0 && matchLen(p + rest) == |p|
    ensures Rewrite(p + rest, atLineStart, anchored, matchLen, replace) ==
      replace(p + rest) + Rewrite(rest, p[|p| - 1] == '\n', anchored, matchLen, replace)
  {
    assert (p + rest)[|p|..] == rest;
    assert (p + rest)[|p| - 1] == p[|p| - 1];
  }

  /** Without ^ the line-start flag plays no part. */
  lemma UnanchoredFlag(s: string, a: bool, b: bool, matchLen: string -> nat, replace: string -> string)
    requires forall t :: matchLen(t) <= |t|
    ensures Rewrite(s, a, false, matchLen, replace) == Rewrite(s, b, false, matchLen, replace)
  {
  }

  /** A pass that matches at no position leaves the text unchanged. */
  lemma {:induction false} RewriteIdentity(s: string, atLineStart: bool, anchored: bool, matchLen: string -> nat, replace: string -> string)
    requires forall t :: matchLen(t) <= |t|
    requires forall k :: 0 <= k < |s| ==> matchLen(s[k..]) == 0
    ensures Rewrite(s, atLineStart, anchored, matchLen, replace) == s
    decreases |s|
  {
    if |s| > 0 {
      assert matchLen(s[0..]) == 0 && s[0..] == s;
      forall k | 0 <= k < |s[1..]| ensures matchLen(s[1..][k..]) == 0 {
        assert s[1..][k..] == s[k + 1..];
      }
      RewriteIdentity(s[1..], s[0] == '\n', anchored, matchLen, replace);
    }
  }

  /** An anchored pass never fires inside a line that does not start at the scan position. */
  lemma {:induction false} RewriteOffLine(s: string, matchLen: string -> nat, replace: string -> string)
    requires forall t :: matchLen(t) <= |t|
    requires forall k :: 0 <= k < |s| ==> s[k] != '\n'
    ensures Rewrite(s, false, true, matchLen, replace) == s
    decreases |s|
  {
    if |s| > 0 {
      RewriteOffLine(s[1..], matchLen, replace);
    }
  }

  /** The run of `p` at the start of a + b is exactly a when b does not continue it. */
  lemma {:induction false} SpanOfConcat(a: string, b: string, p: char -> bool)
    requires forall i :: 0 <= i < |a| ==> p(a[i])
    requires b == [] || !p(b[0])
    ensures Span(a + b, p) == |a|
  {
    if |a| == 0 {
      assert a + b == b;
    } else {
      assert (a + b)[1..] == a[1..] + b;
      SpanOfConcat(a[1..], b, p);
    }
  }

  /** `c` becomes c. */
  lemma InlineCodeUnwrapped(c: string, rest: string)
    requires |c| > 0 && forall i :: 0 <= i < |c| ==> c[i] != '`'
    ensures StripInlineCode("`" + c + "`" + rest) == c + StripInlineCode(rest)
  {
    var p := "`" + c + "`";
    var s := p + rest;
    assert s == "`" + c + "`" + rest;
    assert s[1..] == c + "`" + rest;
    assert Span(s[1..], NotBacktick) == |c| by {
      assert s[1..][|c|] == '`';
    }
    assert CodeLength(s) == |p|;
    assert s[1..|p| - 1] == c;
    RewriteAt(p, rest, true, false, CodeLength, CodeGroup);
    UnanchoredFlag(rest, false, true, CodeLength, CodeGroup);
  }

  /** [t](u) becomes t. */
  lemma LinkUnwrapped(t: string, u: string, rest: string)
    requires |t| > 0 && forall i :: 0 <= i < |t| ==> t[i] != ']'
    requires |u| > 0 && forall i :: 0 <= i < |u| ==> u[i] != ')'
    ensures StripLinks("[" + t + "](" + u + ")" + rest) == t + StripLinks(rest)
  {
    var p := "[" + t + "](" + u + ")";
    var s := p + rest;
    assert s == "[" + t + "](" + u + ")" + rest;
    assert s[1..] == t + "](" + u + ")" + rest;
    assert Span(s[1..], NotCloseBracket) == |t| by {
      assert s[1..][|t|] == ']';
    }
    assert s[|t| + 2] == '(';
    assert s[|t| + 3..] == u + ")" + rest;
    assert Span(s[|t| + 3..], NotCloseParen) == |u| by {
      assert s[|t| + 3..][|u|] == ')';
    }
    assert LinkLength(s) == |p|;
    assert s[1..1 + |t|] == t;
    RewriteAt(p, rest, true, false, LinkLength, LinkGroup);
    UnanchoredFlag(rest, false, true, LinkLength, LinkGroup);
  }

  /**
    A line that starts with one to six '#' and whitespace loses that prefix, and
    the next line is still a line start when the whitespace ended in a newline.
   */
  lemma HeaderRemoved(h: string, w: string, rest: string)
    requires 1 <= |h| <= 6 && forall i :: 0 <= i < |h| ==> h[i] == '#'
    requires |w| > 0 && forall i :: 0 <= i < |w| ==> IsSpace(w[i])
    requires rest == [] || !IsSpace(rest[0])
    ensures StripHeaders(h + w + rest) == Rewrite(rest, w[|w| - 1] == '\n', true, HeaderLength, Deleted)
  {
    var p := h + w;
    HeaderLengthAt(h, w, rest);
    DeletedAt(p, rest, HeaderLength);
    assert p[|p| - 1] == w[|w| - 1];
  }

  /** Seven or more '#' are not a header: ^#{1,6}\s+ needs whitespace right after at most six. */
  lemma SevenHashesKept(h: string, rest: string)
    requires |h| >= 7 && forall i :: 0 <= i < |h| ==> h[i] == '#'
    requires rest == [] || rest[0] != '#'
    requires forall i :: 0 <= i < |rest| ==> rest[i] != '\n'
    ensures StripHeaders(h + rest) == h + rest
  {
    SpanOfConcat(h, rest, IsHash);
    NoMatchOnLine(h + rest, HeaderLength, Deleted);
  }

  /** An anchored pass that does not match at the start of a one-line text leaves it unchanged. */
  lemma NoMatchOnLine(s: string, matchLen: string -> nat, replace: string -> string)
    requires forall t :: matchLen(t) <= |t|
    requires forall k :: 0 <= k < |s| ==> s[k] != '\n'
    requires |s| > 0 ==> matchLen(s) == 0
    ensures Rewrite(s, true, true, matchLen, replace) == s
  {
    if |s| > 0 {
      RewriteOffLine(s[1..], matchLen, replace);
    }
  }

  /** ^[-*_]{3,}$ : a line of three or more rule characters is deleted, and its newline is kept. */
  lemma RuleLineRemoved(r: string, rest: string)
    requires |r| >= 3 && forall i :: 0 <= i < |r| ==> IsRuleChar(r[i])
    requires rest == [] || rest[0] == '\n'
    ensures StripRules(r + rest) == Rewrite(rest, false, true, RuleLength, Deleted)
  {
    SpanOfConcat(r, rest, IsRuleChar);
    assert rest != [] ==> (r + rest)[|r|] == '\n';
    assert RuleLength(r + rest) == |r|;
    DeletedAt(r, rest, RuleLength);
  }

  /** ^\s*\d+\.\s+ : the marker of a numbered item is deleted from a one-line item. */
  lemma NumberedItemRemoved(ds: string, rest: string)
    requires |ds| > 0 && forall i :: 0 <= i < |ds| ==> IsDigit(ds[i])
    requires forall i :: 0 <= i < |rest| ==> rest[i] != '\n'
    requires rest == [] || !IsSpace(rest[0])
    ensures StripNumbers(ds + ". " + rest) == rest
  {
    NumberLengthAt(ds, rest);
    DeletedAt(ds + ". ", rest, NumberLength);
    assert (ds + ". ")[|ds + ". "| - 1] == ' ';
    RewriteOffLine(rest, NumberLength, Deleted);
  }

  /** The numbered-item pattern matches the digits, the dot and the single space after them. */
  lemma NumberLengthAt(ds: string, rest: string)
    requires |ds| > 0 && forall i :: 0 <= i < |ds| ==> IsDigit(ds[i])
    requires rest == [] || !IsSpace(rest[0])
    ensures NumberLength(ds + ". " + rest) == |ds + ". "|
  {
    var t := ". " + rest;
    assert ds + ". " + rest == ds + t;
    DigitsSpan(ds, t);
    assert (ds + t)[|ds|..] == t;
    assert t[1..] == " " + rest;
    SpanOfConcat(" ", rest, IsSpace);
  }

  /** A run of digits opens with no whitespace and is the whole digit run when a non-digit follows. */
  lemma DigitsSpan(ds: string, t: string)
    requires |ds| > 0 && forall i :: 0 <= i < |ds| ==> IsDigit(ds[i])
    requires |t| > 0 && t[0] == '.'
    ensures Span(ds + t, IsSpace) == 0 && Span(ds + t, IsDigit) == |ds|
  {
    assert (ds + t)[0] == ds[0];
    SpanOfConcat(ds, t, IsDigit);
  }

  /** A deleting, anchored pass that matches `p` at a line start drops it and resumes after it. */
  lemma DeletedAt(p: string, rest: string, matchLen: string -> nat)
    requires forall t :: matchLen(t) <= |t|
    requires |p| > 0 && matchLen(p + rest) == |p|
    ensures Rewrite(p + rest, true, true, matchLen, Deleted) == Rewrite(rest, p[|p| - 1] == '\n', true, matchLen, Deleted)
  {
    RewriteAt(p, rest, true, true, matchLen, Deleted);
  }

  /** The header pattern matches the hashes and the whole whitespace run after them. */
  lemma HeaderLengthAt(h: string, w: string, rest: string)
    requires 1 <= |h| <= 6 && forall i :: 0 <= i < |h| ==> h[i] == '#'
    requires |w| > 0 && forall i :: 0 <= i < |w| ==> IsSpace(w[i])
    requires rest == [] || !IsSpace(rest[0])
    ensures HeaderLength(h + w + rest) == |h + w|
  {
    var s := h + w + rest;
    assert s == h + (w + rest);
    SpanOfConcat(h, w + rest, IsHash);
    assert s[|h|..] == w + rest;
    SpanOfConcat(w, rest, IsSpace);
  }

  /** The lazy group closes at the first delimiter, provided no newline comes before it. */
  lemma {:induction false} LazyCloseFirst(rest: string, d: string, k: nat, target: nat)
    requires 1 <= k <= target && target + |d| <= |rest|
    requires forall j :: k <= j < target ==> !IsPrefix(d, rest[j..])
    requires forall j :: 0 <= j < target ==> rest[j] != '\n'
    requires IsPrefix(d, rest[target..])
    ensures LazyClose(rest, d, k) == target
    decreases target - k
  {
    if k < target {
      LazyCloseFirst(rest, d, k + 1, target);
    }
  }

  lemma EmphasisMatchAt(d: string, c: string, rest: string)
    requires |d| > 0 && |c| > 0
    requires forall i :: 0 <= i < |c| ==> c[i] != d[0] && c[i] != '\n'
    ensures EmphasisLength(d + c + d + rest, d) == |d + c + d|
    ensures EmphasisGroup(d + c + d + rest, d) == c
  {
    var s := d + c + d + rest;
    var r := s[|d|..];
    assert r == c + d + rest;
    forall j | 1 <= j < |c| ensures !IsPrefix(d, r[j..]) {
      assert r[j..][0] == c[j];
    }
    assert r[|c|..][..|d|] == d;
    LazyCloseFirst(r, d, 1, |c|);
    assert s[|d|..|d| + |c|] == c;
  }

  /** d c d becomes c, for text c on one line without the delimiter's character: **b** becomes b, _i_ becomes i. */
  lemma EmphasisUnwrapped(d: string, c: string, rest: string)
    requires |d| > 0 && |c| > 0
    requires forall i :: 0 <= i < |c| ==> c[i] != d[0] && c[i] != '\n'
    ensures StripEmphasis(d + c + d + rest, d) == c + StripEmphasis(rest, d)
  {
    var p := d + c + d;
    assert p + rest == d + c + d + rest;
    EmphasisMatchAt(d, c, rest);
    var m, g := EmphasisMatcher(d), EmphasisReplacer(d);
    assert m(p + rest) == |p|;
    assert g(p + rest) == c;
    RewriteAt(p, rest, true, false, m, g);
    UnanchoredFlag(rest, p[|p| - 1] == '\n', true, m, g);
  }

  // ---------------------------------------------------------------------
  // Text a pass has nothing to do on

  lemma HeadersWithoutHash(s: string)
    requires forall i :: 0 <= i < |s| ==> s[i] != '#'
    ensures StripHeaders(s) == s
  {
    forall k | 0 <= k < |s| ensures HeaderLength(s[k..]) == 0 {
      assert s[k..][0] == s[k];
    }
    RewriteIdentity(s, true, true, HeaderLength, Deleted);
  }

  lemma EmphasisWithoutDelimiter(s: string, d: string)
    requires |d| > 0 && forall i :: 0 <= i < |s| ==> s[i] != d[0]
    ensures StripEmphasis(s, d) == s
  {
    forall k | 0 <= k < |s| ensures EmphasisMatcher(d)(s[k..]) == 0 {
      assert s[k..][0] == s[k];
    }
    RewriteIdentity(s, true, false, EmphasisMatcher(d), EmphasisReplacer(d));
  }

  lemma InlineCodeWithoutBacktick(s: string)
    requires forall i :: 0 <= i < |s| ==> s[i] != '`'
    ensures StripInlineCode(s) == s
  {
    forall k | 0 <= k < |s| ensures CodeLength(s[k..]) == 0 {
      assert s[k..][0] == s[k];
    }
    RewriteIdentity(s, true, false, CodeLength, CodeGroup);
  }

  lemma LinksWithoutBracket(s: string)
    requires forall i :: 0 <= i < |s| ==> s[i] != '['
    ensures StripLinks(s) == s
  {
    forall k | 0 <= k < |s| ensures LinkLength(s[k..]) == 0 {
      assert s[k..][0] == s[k];
    }
    RewriteIdentity(s, true, false, LinkLength, LinkGroup);
  }

  lemma {:induction false} RemovePipesWithoutPipe(s: string)
    requires forall i :: 0 <= i < |s| ==> s[i] != '|'
    ensures RemovePipes(s) == s
  {
    if |s| > 0 {
      RemovePipesWithoutPipe(s[1..]);
    }
  }

  lemma {:induction false} CollapseWithoutNewline(s: string)
    requires forall i :: 0 <= i < |s| ==> s[i] != '\n'
    ensures CollapseBlankLines(s) == s
  {
    if |s| > 0 {
      CollapseWithoutNewline(s[1..]);
    }
  }

  /** A character none of the passes reacts to outside a line start. */
  predicate Plain(c: char) {
    c != '#' && c != '*' && c != '_' && c != '`' && c != '[' && c != '|' && c != '\n'
  }

  predicate PlainLine(s: string) {
    forall i :: 0 <= i < |s| ==> Plain(s[i])
  }

  lemma PlainNoHeadingOrEmphasis(s: string)
    requires PlainLine(s)
    ensures StripEmphasis(StripEmphasis(StripEmphasis(StripEmphasis(StripHeaders(s), "**"), "__"), "*"), "_") == s
  {
    HeadersWithoutHash(s);
    EmphasisFree(s);
  }

  lemma PlainNoCodeLinkPipeOrBreak(s: string)
    requires PlainLine(s)
    ensures StripLinks(StripInlineCode(s)) == s
    ensures RemovePipes(s) == s && CollapseBlankLines(s) == s
  {
    InlineCodeWithoutBacktick(s);
    LinksWithoutBracket(s);
    RemovePipesWithoutPipe(s);
    CollapseWithoutNewline(s);
  }

  lemma EmphasisFree(s: string)
    requires forall i :: 0 <= i < |s| ==> s[i] != '*' && s[i] != '_'
    ensures StripEmphasis(StripEmphasis(StripEmphasis(StripEmphasis(s, "**"), "__"), "*"), "_") == s
  {
    EmphasisWithoutDelimiter(s, "**");
    EmphasisWithoutDelimiter(s, "__");
    EmphasisWithoutDelimiter(s, "*");
    EmphasisWithoutDelimiter(s, "_");
  }

  /**
    A one-line text of plain characters with no whitespace at its ends, whose
    first character is neither a digit nor '-', comes back word for word: no
    pass finds anything to rewrite in it.
   */
  lemma PlainTextKept(t: string)
    requires |t| > 0 && PlainLine(t) && !IsSpace(t[0]) && !IsDigit(t[0]) && t[0] != '-' && !IsSpace(t[|t| - 1])
    ensures RemoveMarkdownFormatting(Some(t)) == Some(t)
  {
    PlainNoHeadingOrEmphasis(t);
    NoRuleOrBullet(t);
    PlainNoCodeLinkPipeOrBreak(t);
    NoNumber(t);
    assert Span(t, IsSpace) == 0;
  }

  /** Neither ^[-*_]{3,}$ nor ^\s*[-*]\s+ matches a plain line that starts with a non-space other than '-'. */
  lemma NoRuleOrBullet(t: string)
    requires |t| > 0 && PlainLine(t) && !IsSpace(t[0]) && t[0] != '-'
    ensures StripRules(t) == t && StripBullets(t) == t
  {
    assert Span(t, IsRuleChar) == 0 && Span(t, IsSpace) == 0;
    RewriteOffLine(t[1..], RuleLength, Deleted);
    RewriteOffLine(t[1..], BulletLength, Deleted);
  }

  /** ^[-*_]{3,}$ : a single '-' is too short for a rule, and no later position is a line start. */
  lemma NoRule(s: string)
    requires |s| >= 2 && s[0] == '-' && s[1] == ' '
    requires forall i :: 0 <= i < |s| ==> s[i] != '\n'
    ensures StripRules(s) == s
  {
    assert Span(s, IsRuleChar) == 1;
    RewriteOffLine(s[1..], RuleLength, Deleted);
  }

  /** ^\s*\d+\.\s+ : no digit at the start, and no later position is a line start. */
  lemma NoNumber(s: string)
    requires |s| > 0 && !IsDigit(s[0]) && !IsSpace(s[0])
    requires forall i :: 0 <= i < |s| ==> s[i] != '\n'
    ensures StripNumbers(s) == s
  {
    assert Span(s, IsSpace) == 0 && Span(s, IsDigit) == 0;
    RewriteOffLine(s[1..], NumberLength, Deleted);
  }

  /** ^\s*[-*]\s+ : a leading "- " goes, and the rest of the line is no longer at a line start. */
  lemma LeadingBullet(rest: string)
    requires forall i :: 0 <= i < |rest| ==> rest[i] != '\n'
    requires rest == [] || !IsSpace(rest[0])
    ensures StripBullets("- " + rest) == rest
  {
    var s := "- " + rest;
    assert Span(s, IsSpace) == 0;
    assert s[1..] == " " + rest;
    SpanOfConcat(" ", rest, IsSpace);
    assert BulletLength(s) == 2;
    RewriteAt("- ", rest, true, true, BulletLength, Deleted);
    RewriteOffLine(rest, BulletLength, Deleted);
  }

  /** The passes take exactly one bullet off a one-line bullet item. */
  lemma PassesBulletLine(rest: string)
    requires |rest| > 0 && PlainLine(rest) && !IsSpace(rest[0]) && !IsDigit(rest[0])
    ensures Passes("- " + rest) == rest
  {
    var t := "- " + rest;
    assert PlainLine(t) by {
      assert forall i :: 2 <= i < |t| ==> t[i] == rest[i - 2];
    }
    PlainNoHeadingOrEmphasis(t);
    var emphasis := StripEmphasis(StripEmphasis(StripEmphasis(StripEmphasis(StripHeaders(t), "**"), "__"), "*"), "_");
    NoRule(t);
    PlainNoCodeLinkPipeOrBreak(t);
    var inline := StripLinks(StripInlineCode(StripRules(emphasis)));
    assert inline == t;
    LeadingBullet(rest);
    NoNumber(rest);
    PlainNoCodeLinkPipeOrBreak(rest);
  }

  /** The whole normaliser on a one-line bullet item whose text has plain ends. */
  lemma NormalizeBulletLine(rest: string)
    requires |rest| > 0 && PlainLine(rest) && !IsSpace(rest[0]) && !IsDigit(rest[0]) && !IsSpace(rest[|rest| - 1])
    ensures RemoveMarkdownFormatting(Some("- " + rest)) == Some(rest)
  {
    PassesBulletLine(rest);
    PlainNoCodeLinkPipeOrBreak(rest);
    assert Span(rest, IsSpace) == 0;
  }

  /**
    The normaliser is not idempotent: the bullet pass runs once, so a line
    that starts with two bullets keeps the second one until a second call,
    as with "- - x", which becomes "- x" and then "x".
   */
  lemma NotIdempotent(rest: string)
    requires |rest| > 0 && PlainLine(rest) && !IsSpace(rest[0]) && !IsDigit(rest[0]) && !IsSpace(rest[|rest| - 1])
    ensures RemoveMarkdownFormatting(Some("- - " + rest)) == Some("- " + rest)
    ensures RemoveMarkdownFormatting(Some("- " + rest)) == Some(rest)
    ensures RemoveMarkdownFormatting(RemoveMarkdownFormatting(Some("- - " + rest))) != RemoveMarkdownFormatting(Some("- - " + rest))
  {
    var once := "- " + rest;
    assert "- - " + rest == "- " + once;
    assert PlainLine(once) by {
      assert forall i :: 2 <= i < |once| ==> once[i] == rest[i - 2];
    }
    NormalizeBulletLine(once);
    NormalizeBulletLine(rest);
    assert |once| != |rest|;
  }
}

=== FILE: Proactive.dfy ===
/**
  get_proactive_suggestions: the active rules (in store order) are filtered by
  the current doctype and by their condition, turned into suggestions, and
  stable-sorted by priority.
 */
module Proactive {
  import opened Wrappers
  import opened Sorting

  /** The fields of a Proactive Rule the core reads; an unset field is "". */
  datatype Rule = Rule(
    name: string,
    ruleName: string,
    ruleType: string,
    targetDoctype: string,
    template: string,
    templateUrdu: string,
    priority: string)

  datatype Suggestion = Suggestion(rule: string, message: string, messageUrdu: string, priority: string, kind: string)

  /** `priority_order.get(priority, 4)` */
  function PriorityRank(priority: string): (rank: int)
    ensures 0 <= rank <= 4
    ensures rank == 4 <==> priority != "Critical" && priority != "High" && priority != "Medium" && priority != "Low"
    ensures priority == "Critical" ==> rank == 0
    ensures priority == "High" ==> rank == 1
    ensures priority == "Medium" ==> rank == 2
    ensures priority == "Low" ==> rank == 3
  {
    if priority == "Critical" then 0
    else if priority == "High" then 1
    else if priority == "Medium" then 2
    else if priority == "Low" then 3
    else 4
  }

  function SuggestionRank(s: Suggestion): int { PriorityRank(s.priority) }

  /** A rule is passed over when a doctype is given, the rule names a target, and the two differ. */
  predicate Skipped(rule: Rule, doctype: string) {
    doctype != "" && rule.targetDoctype != "" && rule.targetDoctype != doctype
  }

  function ToSuggestion(rule: Rule): Suggestion {
    Suggestion(rule.ruleName, rule.template, rule.templateUrdu, rule.priority, rule.ruleType)
  }

  /**
    check_rule_condition. `lowStock` and `overdue` are the counts the two SQL
    queries return (None when the query yields no row or raises); only the
    two known rule types can hold.
   */
  function CheckRuleCondition(rule: Rule, lowStock: Option<nat>, overdue: Option<nat>): (holds: bool)
    ensures holds ==> rule.ruleType == "Low Stock Alert" || rule.ruleType == "Overdue Invoice"
    ensures rule.ruleType == "Low Stock Alert" ==> (holds <==> lowStock.Some? && lowStock.value > 0)
    ensures rule.ruleType == "Overdue Invoice" ==> (holds <==> overdue.Some? && overdue.value > 0)
  {
    if rule.ruleType == "Low Stock Alert" then lowStock.Some? && lowStock.value > 0
    else if rule.ruleType == "Overdue Invoice" then overdue.Some? && overdue.value > 0
    else false
  }

  /** The suggestions collected before sorting, in rule order. */
  function Collected(rules: seq<Rule>, doctype: string, condition: Rule -> bool): seq<Suggestion> {
    if |rules| == 0 then []
    else
      var last := rules[|rules| - 1];
      Collected(rules[..|rules| - 1], doctype, condition) +
        (if !Skipped(last, doctype) && condition(last) then [ToSuggestion(last)] else [])
  }

  /** What get_proactive_suggestions returns. */
  function ProactiveSuggestions(rules: seq<Rule>, doctype: string, condition: Rule -> bool): seq<Suggestion> {
    SortBy(Collected(rules, doctype, condition), SuggestionRank)
  }

  /** The loop over the rules, then the sort by priority. `condition` stands for check_rule_condition. */
  method GetProactiveSuggestions(rules: seq<Rule>, doctype: string, condition: Rule -> bool) returns (suggestions: seq<Suggestion>)
    ensures suggestions == ProactiveSuggestions(rules, doctype, condition)
  {
    suggestions := [];
    for i := 0 to |rules|
      invariant suggestions == Collected(rules[..i], doctype, condition)
    {
      var rule := rules[i];
      assert rules[..i + 1][..i] == rules[..i];
      if doctype != "" && rule.targetDoctype != "" && rule.targetDoctype != doctype {
        continue;
      }
      if condition(rule) {
        suggestions := suggestions + [ToSuggestion(rule)];
      }
    }
    assert rules[..|rules|] == rules;
    suggestions := SortBy(suggestions, SuggestionRank);
  }

  // ---------------------------------------------------------------------
  // Properties

  /** A suggestion is collected exactly when some rule that applies here and whose condition holds produces it. */
  lemma {:induction false} CollectedIff(rules: seq<Rule>, doctype: string, condition: Rule -> bool, s: Suggestion)
    ensures s in Collected(rules, doctype, condition) <==>
      exists k :: 0 <= k < |rules| && !Skipped(rules[k], doctype) && condition(rules[k]) && s == ToSuggestion(rules[k])
  {
    if |rules| > 0 {
      var init := rules[..|rules| - 1];
      CollectedIff(init, doctype, condition, s);
      if exists k :: 0 <= k < |init| && !Skipped(init[k], doctype) && condition(init[k]) && s == ToSuggestion(init[k]) {
        var k :| 0 <= k < |init| && !Skipped(init[k], doctype) && condition(init[k]) && s == ToSuggestion(init[k]);
        assert rules[k] == init[k];
      }
      if exists k :: 0 <= k < |rules| && !Skipped(rules[k], doctype) && condition(rules[k]) && s == ToSuggestion(rules[k]) {
        var k :| 0 <= k < |rules| && !Skipped(rules[k], doctype) && condition(rules[k]) && s == ToSuggestion(rules[k]);
        if k < |init| {
          assert init[k] == rules[k];
        }
      }
    }
  }

  /** The output holds exactly the suggestions of the rules that apply and hold. */
  lemma SuggestionsIff(rules: seq<Rule>, doctype: string, condition: Rule -> bool, s: Suggestion)
    ensures s in ProactiveSuggestions(rules, doctype, condition) <==>
      exists k :: 0 <= k < |rules| && !Skipped(rules[k], doctype) && condition(rules[k]) && s == ToSuggestion(rules[k])
  {
    var c := Collected(rules, doctype, condition);
    SortPermutes(c, SuggestionRank);
    CollectedIff(rules, doctype, condition, s);
    assert s in ProactiveSuggestions(rules, doctype, condition) <==> s in multiset(ProactiveSuggestions(rules, doctype, condition));
    assert s in c <==> s in multiset(c);
  }

  /** Rules that name no target doctype are offered the same way whatever the current doctype is. */
  lemma {:induction false} UntargetedRulesApplyEverywhere(rules: seq<Rule>, doctype: string, other: string, condition: Rule -> bool)
    requires forall k :: 0 <= k < |rules| ==> rules[k].targetDoctype == ""
    ensures Collected(rules, doctype, condition) == Collected(rules, other, condition)
  {
    if |rules| > 0 {
      UntargetedRulesApplyEverywhere(rules[..|rules| - 1], doctype, other, condition);
    }
  }

  /** With no current doctype, every rule whose condition holds is offered. */
  lemma NoDoctypeOffersAll(rules: seq<Rule>, condition: Rule -> bool, k: int)
    requires 0 <= k < |rules| && condition(rules[k])
    ensures ToSuggestion(rules[k]) in ProactiveSuggestions(rules, "", condition)
  {
    SuggestionsIff(rules, "", condition, ToSuggestion(rules[k]));
  }

  /** The output is ordered Critical, High, Medium, Low, then any other priority. */
  lemma SuggestionsSorted(rules: seq<Rule>, doctype: string, condition: Rule -> bool)
    ensures forall i, j :: 0 <= i < j < |ProactiveSuggestions(rules, doctype, condition)| ==>
      PriorityRank(ProactiveSuggestions(rules, doctype, condition)[i].priority) <= PriorityRank(ProactiveSuggestions(rules, doctype, condition)[j].priority)
  {
    SortSorted(Collected(rules, doctype, condition), SuggestionRank);
  }

  /**
    In the output, a suggestion of a more urgent priority never follows one of
    a less urgent priority: Critical, then High, Medium, Low, then the rest.
   */
  lemma {:induction false} UrgentFirst(rules: seq<Rule>, doctype: string, condition: Rule -> bool, i: int, j: int)
    requires 0 <= i < j < |ProactiveSuggestions(rules, doctype, condition)|
    ensures var p, q := ProactiveSuggestions(rules, doctype, condition)[i].priority, ProactiveSuggestions(rules, doctype, condition)[j].priority;
      (q == "Critical" ==> p == "Critical") &&
      (q == "High" ==> p == "Critical" || p == "High") &&
      (q == "Medium" ==> p == "Critical" || p == "High" || p == "Medium") &&
      (q == "Low" ==> p == "Critical" || p == "High" || p == "Medium" || p == "Low")
  {
    SuggestionsSorted(rules, doctype, condition);
  }

  /** The output is a permutation of the collected suggestions. */
  lemma SuggestionsPermute(rules: seq<Rule>, doctype: string, condition: Rule -> bool)
    ensures multiset(ProactiveSuggestions(rules, doctype, condition)) == multiset(Collected(rules, doctype, condition))
  {
    SortPermutes(Collected(rules, doctype, condition), SuggestionRank);
  }

  /** Within one priority rank the rules' store order is kept. */
  lemma SuggestionsStable(rules: seq<Rule>, doctype: string, condition: Rule -> bool, rank: int)
    ensures WithKey(ProactiveSuggestions(rules, doctype, condition), SuggestionRank, rank) ==
            WithKey(Collected(rules, doctype, condition), SuggestionRank, rank)
  {
    SortStable(Collected(rules, doctype, condition), SuggestionRank, rank);
  }

  /** Rules of any type other than the two known ones never produce a suggestion under check_rule_condition. */
  lemma UnknownRuleTypesSilent(rules: seq<Rule>, doctype: string, lowStock: Option<nat>, overdue: Option<nat>)
    requires forall k :: 0 <= k < |rules| ==> rules[k].ruleType != "Low Stock Alert" && rules[k].ruleType != "Overdue Invoice"
    ensures ProactiveSuggestions(rules, doctype, (r: Rule) => CheckRuleCondition(r, lowStock, overdue)) == []
  {
    var condition := (r: Rule) => CheckRuleCondition(r, lowStock, overdue);
    var out := ProactiveSuggestions(rules, doctype, condition);
    if |out| > 0 {
      SuggestionsIff(rules, doctype, condition, out[0]);
    }
  }
}

=== FILE: Resolver.dfy ===
/**
  get_response and its fallbacks: a confident knowledge-base match, then AI
  enrichment, then a template for the session's doctype, then a template for
  the intent, then the default answer. The record store is an input: the
  candidates are the articles the store returns for the message (already
  filtered and cut to the page limit), and the usage-count write is returned
  as an update for the caller to apply.
 */
module Resolver {
  import opened Wrappers
  import opened Text
  import opened KnowledgeBase
  import opened ChatnextSettings
  import opened AiEngine
  import opened Answers

  /** `frappe.db.set_value(..., name, "usage_count", value)` */
  datatype UsageUpdate = SetUsageCount(article: string, value: int)

  /** The answer, the usage-count write it asks for, and the provider request made on the way (if any). */
  datatype Resolution = Resolution(answer: Answer, usage: Option<UsageUpdate>, call: Option<ProviderCall>)

  /** The intents get_rule_based_response has a template for (the same seven in both languages). */
  predicate KnownIntent(intent: string) {
    intent == "how_to" ||
    intent == "what_is" ||
    intent == "create" ||
    intent == "error" ||
    intent == "find" ||
    intent == "report" ||
    intent == "setup"
  }

  /** The template get_rule_based_response gives a known intent, in Urdu or in English. */
  function IntentTemplate(intent: string, urdu: bool): string
    requires KnownIntent(intent)
  {
    if intent == "how_to" then (if urdu then "آپ کی مدد کرنے کے لیے، براہ کرم بتائیں کہ آپ کو کس ماڈیول یا فیچر میں مدد چاہیے؟ مثال: Sales, Purchase, HR, Inventory"
         else "To help you better, could you please specify which module or feature you need help with? For example: Sales, Purchase, HR, Inventory, etc.")
    else if intent == "what_is" then (if urdu then "میں ERPNext کے تصورات سمجھا سکتا ہوں۔ براہ کرم بتائیں آپ کیا جاننا چاہتے ہیں۔"
         else "I can explain ERPNext concepts. Please specify what you'd like to know about.")
    else if intent == "create" then (if urdu then "میں آپ کو ERPNext میں documents بنانے میں مدد کر سکتا ہوں۔ آپ کون سا document بنانا چاہتے ہیں؟"
         else "I can guide you on creating documents in ERPNext. Which document type would you like to create?")
    else if intent == "error" then (if urdu then "میں مسئلہ حل کرنے میں مدد کروں گا۔ براہ کرم error یا issue کی تفصیل بتائیں۔"
         else "I'd be happy to help troubleshoot. Could you please describe the error or issue in more detail?")
    else if intent == "find" then (if urdu then "آپ Awesome Bar (Ctrl+K) استعمال کر کے تلاش کر سکتے ہیں۔ آپ کیا ڈھونڈ رہے ہیں؟"
         else "You can use the Awesome Bar (Ctrl+K) to search globally. What specifically are you looking for?")
    else if intent == "report" then (if urdu then "ERPNext میں بہت سی رپورٹس ہیں۔ آپ کو کس ماڈیول کی رپورٹس چاہیے؟"
         else "ERPNext has many built-in reports. Which module's reports are you interested in?")
    else (if urdu then "میں ERPNext setup میں مدد کر سکتا ہوں۔ آپ کیا configure کرنا چاہتے ہیں؟"
         else "I can help with ERPNext setup. Which area would you like to configure?")
  }

  /** The doctypes get_context_response has a template for (the same five in both languages). */
  predicate KnownDoctype(doctype: string) {
    doctype == "Sales Invoice" ||
    doctype == "Purchase Order" ||
    doctype == "Employee" ||
    doctype == "Stock Entry" ||
    doctype == "Customer"
  }

  /** The template get_context_response gives a known doctype, in Urdu or in English. */
  function ContextTemplate(doctype: string, urdu: bool): string
    requires KnownDoctype(doctype)
  {
    if doctype == "Sales Invoice" then (if urdu then "میں Sales Invoices میں مدد کر سکتا ہوں۔ عام کام: نیا invoice بنانا، payment status چیک کرنا، invoice print کرنا۔ آپ کیا کرنا چاہتے ہیں؟"
         else "I can help you with Sales Invoices. Common actions: Create new invoice, Check payment status, Print invoice, Submit invoice. What would you like to do?")
    else if doctype == "Purchase Order" then (if urdu then "میں Purchase Orders میں مدد کر سکتا ہوں۔ آپ کر سکتے ہیں: PO بنانا، items receive کرنا، status چیک کرنا۔ کیا چاہیے؟"
         else "I can help with Purchase Orders. You can: Create PO, Receive items, Check status, or Amend PO. What do you need?")
    else if doctype == "Employee" then (if urdu then "میں Employee records میں مدد کر سکتا ہوں۔ آپ دیکھ سکتے ہیں: Attendance، Leave balance، Details update کرنا۔ کیا جاننا چاہتے ہیں؟"
         else "I can help with Employee records. You can: View attendance, Check leave balance, Update details, or Create salary slip. What would you like to know?")
    else if doctype == "Stock Entry" then (if urdu then "میں Stock Entries میں مدد کر سکتا ہوں۔ عام operations: Material Transfer، Receipt، Issue، Manufacture۔ کیا مدد چاہیے؟"
         else "I can help with Stock Entries. Common operations: Material Transfer, Receipt, Issue, Manufacture. What do you need help with?")
    else (if urdu then "میں Customer records manage کرنے میں مدد کروں گا۔ آپ کر سکتے ہیں: History دیکھنا، Outstanding چیک کرنا، Quotation بنانا۔"
         else "I can help manage Customer records. You can: View history, Check outstanding, Create quotation, or Update details. What would you like to do?")
  }

  /** The text of get_default_response. */
  function DefaultTemplate(urdu: bool): string {
    if urdu then "میں آپ کی مدد کے لیے حاضر ہوں! براہ کرم اپنا سوال تفصیل سے پوچھیں۔ آپ مجھ سے ERPNext کے کسی بھی module کے بارے میں پوچھ سکتے ہیں: Sales, Purchase, Inventory, HR, Accounting, Manufacturing, وغیرہ۔"
    else "I'm here to help! Please ask your question in detail. You can ask me about any ERPNext module: Sales, Purchase, Inventory, HR, Accounting, Manufacturing, etc. How can I assist you today?"
  }

  function Min(a: int, b: int): int { if a < b then a else b }

  /** get_context_response: the doctype's template with confidence 85, for the five doctypes it knows. */
  function GetContextResponse(doctype: string, language: string): (r: Option<Answer>)
    ensures r.Some? <==> KnownDoctype(doctype)
    ensures r.Some? ==> r.value == Answer(ContextTemplate(doctype, language == "Urdu"), ContextSource, 85, [])
  {
    if KnownDoctype(doctype) then Some(Answer(ContextTemplate(doctype, language == "Urdu"), ContextSource, 85, []))
    else None
  }

  /**
    get_rule_based_response: with a session doctype, its template if it has
    one; otherwise the intent's template with confidence 70, for the seven
    intents other than "general".
   */
  function GetRuleBasedResponse(intent: string, contextDoctype: string, language: string): (r: Option<Answer>)
    ensures KnownDoctype(contextDoctype) ==> r == GetContextResponse(contextDoctype, language)
    ensures !KnownDoctype(contextDoctype) ==>
      (r.Some? <==> KnownIntent(intent)) &&
      (r.Some? ==> r.value == Answer(IntentTemplate(intent, language == "Urdu"), RuleSource, 70, []))
  {
    if contextDoctype != "" && GetContextResponse(contextDoctype, language).Some? then GetContextResponse(contextDoctype, language)
    else if KnownIntent(intent) then Some(Answer(IntentTemplate(intent, language == "Urdu"), RuleSource, 70, []))
    else None
  }

  /** get_default_response */
  function GetDefaultResponse(language: string): (r: Answer)
    ensures r.source == RuleSource && r.confidence == 50 && r.suggestions == []
  {
    Answer(DefaultTemplate(language == "Urdu"), RuleSource, 50, [])
  }

  /** The article's Urdu answer when the language is Urdu and it has one, else its answer. */
  function ArticleAnswer(a: Article, language: string): (text: string)
    ensures text == a.answerUrdu || text == a.answer
    ensures text == a.answerUrdu && text != a.answer ==> language == "Urdu"
    ensures language == "Urdu" && a.answerUrdu != "" ==> text == a.answerUrdu
    ensures language != "Urdu" || a.answerUrdu == "" ==> text == a.answer
  {
    if language == "Urdu" && a.answerUrdu != "" then a.answerUrdu else a.answer
  }

  /** is_ai_enabled() */
  predicate AiEnabled(settings: Option<Settings>) {
    settings.Some? && settings.value.enableAi
  }

  /** The top result is a confident match. */
  predicate ConfidentMatch(ranked: seq<Scored>) {
    |ranked| > 0 && ranked[0].score >= 2
  }

  /**
    get_response. `modelReady` is whether get_ai_model has a model, and
    `reply` what the provider produces for the request the AI stage makes.
   */
  function GetResponse(message: string, intent: string, contextDoctype: string, language: string, candidates: seq<Article>,
                       settings: Option<Settings>, modelReady: bool, reply: Option<string>): (r: Resolution)
    ensures 50 <= r.answer.confidence <= 95
    ensures r.usage.Some? <==> r.answer.source == KnowledgeBaseSource
    ensures r.usage.Some? <==> ConfidentMatch(Search(message, candidates))
    ensures ConfidentMatch(Search(message, candidates)) ==>
      var top := Search(message, candidates)[0];
      r.answer == Answer(ArticleAnswer(top.article, language), KnowledgeBaseSource, Min(top.score * 30, 95), Titles(Search(message, candidates)[1..])) &&
      r.usage == Some(SetUsageCount(top.article.name, top.article.usageCount + 1)) &&
      r.call.None?
    ensures r.call.Some? ==> AiEnabled(settings) && |Search(message, candidates)| > 0
    ensures r.answer.source == LlmSource ==> r.call.Some?
  {
    var ranked := Search(message, candidates);
    if ConfidentMatch(ranked) then KnowledgeBaseResolution(ranked, language)
    else FallbackResolution(message, intent, contextDoctype, language, ranked, settings, modelReady, reply)
  }

  /** The knowledge-base stage for a confident match: the top article answers and its usage count goes up. */
  function KnowledgeBaseResolution(ranked: seq<Scored>, language: string): (r: Resolution)
    requires ConfidentMatch(ranked)
    ensures 60 <= r.answer.confidence <= 95
    ensures r.answer.source == KnowledgeBaseSource && r.usage.Some? && r.call.None?
  {
    var article := ranked[0];
    Resolution(
      Answer(ArticleAnswer(article.article, language), KnowledgeBaseSource, Min(article.score * 30, 95), Titles(ranked[1..])),
      Some(SetUsageCount(article.article.name, article.article.usageCount + 1)),
      None)
  }

  /** The stages after the knowledge base: the AI answer, then the templates, then the default. */
  function FallbackResolution(message: string, intent: string, contextDoctype: string, language: string, ranked: seq<Scored>,
                              settings: Option<Settings>, modelReady: bool, reply: Option<string>): (r: Resolution)
    ensures 50 <= r.answer.confidence <= 85
    ensures r.usage.None? && r.answer.source != KnowledgeBaseSource
    ensures r.call.Some? ==> AiEnabled(settings) && |ranked| > 0
    ensures r.answer.source == LlmSource ==> r.call.Some?
  {
    var ai :=
      if AiEnabled(settings) && |ranked| > 0 then GetAiEnhancedResponse(message, ranked, language, settings, modelReady, reply)
      else Enrichment(None, None);
    if ai.answer.Some? then Resolution(ai.answer.value, None, ai.call)
    else
      var rule := GetRuleBasedResponse(intent, contextDoctype, language);
      Resolution(if rule.Some? then rule.value else GetDefaultResponse(language), None, ai.call)
  }

  // ---------------------------------------------------------------------
  // Properties of the chain

  /** The knowledge base answers exactly when some candidate scores at least 2. */
  lemma KnowledgeBaseIff(message: string, intent: string, contextDoctype: string, language: string, candidates: seq<Article>,
                         settings: Option<Settings>, modelReady: bool, reply: Option<string>)
    ensures GetResponse(message, intent, contextDoctype, language, candidates, settings, modelReady, reply).answer.source == KnowledgeBaseSource
      <==> exists a :: a in candidates && ScoreOf(QueryTokens(message), a) >= 2
  {
    var ranked := Search(message, candidates);
    SearchMembers(message, candidates);
    if exists a :: a in candidates && ScoreOf(QueryTokens(message), a) >= 2 {
      var a :| a in candidates && ScoreOf(QueryTokens(message), a) >= 2;
      assert Scored(a, ScoreOf(QueryTokens(message), a)) in ranked;
      TopIsBest(message, candidates);
    }
    if ConfidentMatch(ranked) {
      assert ranked[0] in ranked;
    }
  }

  /** With AI responses off, no provider request is made and the reply plays no part. */
  lemma AiDisabledNoCall(message: string, intent: string, contextDoctype: string, language: string, candidates: seq<Article>,
                         settings: Option<Settings>, modelReady: bool, reply: Option<string>, other: Option<string>)
    requires !AiEnabled(settings)
    ensures GetResponse(message, intent, contextDoctype, language, candidates, settings, modelReady, reply).call.None?
    ensures GetResponse(message, intent, contextDoctype, language, candidates, settings, modelReady, reply) ==
            GetResponse(message, intent, contextDoctype, language, candidates, settings, !modelReady, other)
  {
  }

  /** An accepted AI answer is used whenever there is no confident match. */
  lemma AiAnswerPreferred(message: string, intent: string, contextDoctype: string, language: string, candidates: seq<Article>,
                          settings: Option<Settings>, modelReady: bool, reply: Option<string>)
    requires !ConfidentMatch(Search(message, candidates)) && AiEnabled(settings) && |Search(message, candidates)| > 0
    requires GetAiEnhancedResponse(message, Search(message, candidates), language, settings, modelReady, reply).answer.Some?
    ensures GetResponse(message, intent, contextDoctype, language, candidates, settings, modelReady, reply).answer ==
            GetAiEnhancedResponse(message, Search(message, candidates), language, settings, modelReady, reply).answer.value
  {
  }

  /**
    Below the knowledge base and the AI stage: the doctype template (85) when
    the session's doctype has one, else the intent template (70), else the
    default (50).
   */
  lemma TemplateFallback(message: string, intent: string, contextDoctype: string, language: string, candidates: seq<Article>,
                         settings: Option<Settings>, modelReady: bool, reply: Option<string>)
    requires !ConfidentMatch(Search(message, candidates))
    requires !AiEnabled(settings) || |Search(message, candidates)| == 0 ||
             GetAiEnhancedResponse(message, Search(message, candidates), language, settings, modelReady, reply).answer.None?
    ensures var a := GetResponse(message, intent, contextDoctype, language, candidates, settings, modelReady, reply).answer;
      (KnownDoctype(contextDoctype) ==>
         a.source == ContextSource && a.confidence == 85 && a.text == ContextTemplate(contextDoctype, language == "Urdu")) &&
      (!KnownDoctype(contextDoctype) && KnownIntent(intent) ==>
         a.source == RuleSource && a.confidence == 70 && a.text == IntentTemplate(intent, language == "Urdu")) &&
      (!KnownDoctype(contextDoctype) && !KnownIntent(intent) ==> a == GetDefaultResponse(language))
  {
  }

  /** A query with no intent and no known doctype that the knowledge base cannot answer, with AI off, gets the default. */
  lemma GeneralQueryGetsDefault(message: string, contextDoctype: string, language: string, candidates: seq<Article>)
    requires !ConfidentMatch(Search(message, candidates)) && !KnownDoctype(contextDoctype)
    ensures GetResponse(message, "general", contextDoctype, language, candidates, None, false, None).answer.confidence == 50
  {
  }

  /** A confident match in Urdu with an Urdu answer gives that Urdu answer, and bumps that article's usage count. */
  lemma UrduKnowledgeBaseAnswer(message: string, candidates: seq<Article>, settings: Option<Settings>, modelReady: bool, reply: Option<string>)
    requires ConfidentMatch(Search(message, candidates)) && Search(message, candidates)[0].article.answerUrdu != ""
    ensures var top := Search(message, candidates)[0].article;
      var r := GetResponse(message, "general", "", "Urdu", candidates, settings, modelReady, reply);
      r.answer.text == top.answerUrdu && r.usage == Some(SetUsageCount(top.name, top.usageCount + 1))
  {
  }
}

=== FILE: Sorting.dfy ===
/**
  Python's list.sort(key=...) is a stable sort. The model uses a stable
  insertion sort ascending by an integer key; `reverse=True` on a numeric key
  is the same as sorting ascending by the negated key, since Python keeps a
  reversed sort stable too.
 */
module Sorting {

  /** Puts `x` in front of the first element whose key is not smaller, so `x` precedes its equals. */
  function InsertBy<T>(x: T, s: seq<T>, key: T -> int): (r: seq<T>)
    ensures |r| == |s| + 1
  {
    if |s| == 0 || key(x) <= key(s[0]) then [x] + s else [s[0]] + InsertBy(x, s[1..], key)
  }

  function SortBy<T>(s: seq<T>, key: T -> int): (r: seq<T>)
    ensures |r| == |s|
  {
    if |s| == 0 then [] else InsertBy(s[0], SortBy(s[1..], key), key)
  }

  ghost predicate SortedBy<T>(s: seq<T>, key: T -> int) {
    forall i, j :: 0 <= i < j < |s| ==> key(s[i]) <= key(s[j])
  }

  /** The elements of `s` whose key is `k`, in their order in `s`. */
  function WithKey<T>(s: seq<T>, key: T -> int, k: int): seq<T> {
    if |s| == 0 then [] else (if key(s[0]) == k then [s[0]] else []) + WithKey(s[1..], key, k)
  }

  lemma WithKeyAppend<T>(a: seq<T>, b: seq<T>, key: T -> int, k: int)
    ensures WithKey(a + b, key, k) == WithKey(a, key, k) + WithKey(b, key, k)
  {
    if |a| > 0 {
      assert (a + b)[1..] == a[1..] + b;
      WithKeyAppend(a[1..], b, key, k);
    } else {
      assert a + b == b;
    }
  }

  lemma {:induction false} InsertPermutes<T>(x: T, s: seq<T>, key: T -> int)
    ensures multiset(InsertBy(x, s, key)) == multiset(s) + multiset{x}
  {
    if |s| == 0 || key(x) <= key(s[0]) {
    } else {
      InsertPermutes(x, s[1..], key);
      assert s == [s[0]] + s[1..];
    }
  }

  lemma {:induction false} SortPermutes<T>(s: seq<T>, key: T -> int)
    ensures multiset(SortBy(s, key)) == multiset(s)
  {
    if |s| > 0 {
      SortPermutes(s[1..], key);
      InsertPermutes(s[0], SortBy(s[1..], key), key);
      assert s == [s[0]] + s[1..];
    }
  }

  lemma {:induction false} InsertSorted<T>(x: T, s: seq<T>, key: T -> int)
    requires SortedBy(s, key)
    ensures SortedBy(InsertBy(x, s, key), key)
  {
    if |s| == 0 || key(x) <= key(s[0]) {
    } else {
      var t := s[1..];
      assert SortedBy(t, key);
      InsertSorted(x, t, key);
      var rest := InsertBy(x, t, key);
      InsertPermutes(x, t, key);
      forall e | e in rest ensures key(s[0]) <= key(e) {
        assert e in multiset(rest);
        if e != x {
          assert e in multiset(t);
        }
      }
    }
  }

  lemma {:induction false} SortSorted<T>(s: seq<T>, key: T -> int)
    ensures SortedBy(SortBy(s, key), key)
  {
    if |s| > 0 {
      SortSorted(s[1..], key);
      InsertSorted(s[0], SortBy(s[1..], key), key);
    }
  }

  /** Insertion never moves `x` past an element of equal key. */
  lemma {:induction false} InsertStable<T>(x: T, s: seq<T>, key: T -> int, k: int)
    ensures WithKey(InsertBy(x, s, key), key, k) == (if key(x) == k then [x] else []) + WithKey(s, key, k)
  {
    if |s| == 0 || key(x) <= key(s[0]) {
      assert ([x] + s)[1..] == s;
    } else {
      var t := InsertBy(x, s[1..], key);
      InsertStable(x, s[1..], key, k);
      assert ([s[0]] + t)[1..] == t;
      var head := if key(s[0]) == k then [s[0]] else [];
      assert WithKey([s[0]] + t, key, k) == head + WithKey(t, key, k);
      assert WithKey(s, key, k) == head + WithKey(s[1..], key, k);
      if key(x) == k {
        assert head == [];
      }
    }
  }

  /** Stability: among elements of one key, the sorted order is the original order. */
  lemma {:induction false} SortStable<T>(s: seq<T>, key: T -> int, k: int)
    ensures WithKey(SortBy(s, key), key, k) == WithKey(s, key, k)
  {
    if |s| > 0 {
      SortStable(s[1..], key, k);
      InsertStable(s[0], SortBy(s[1..], key), key, k);
    }
  }
}

=== FILE: Text.dfy ===
/**
  The Python string operations the core relies on: whitespace (str.isspace and
  regex \s), lower(), the substring test `in`, split(), strip(), slicing,
  join(), replace(p, "") and split(sep)[0].
 */
module Text {

  /** Python's str.isspace(), which is also what \s matches in a str pattern. */
  predicate IsSpace(c: char) {
    || ('\t' <= c <= '\r')
    || ('\U{1C}' <= c <= ' ')
    || c == '\U{85}' || c == '\U{A0}' || c == '\U{1680}'
    || ('\U{2000}' <= c <= '\U{200A}')
    || c == '\U{2028}' || c == '\U{2029}' || c == '\U{202F}' || c == '\U{205F}' || c == '\U{3000}'
  }

  predicate NotSpace(c: char) { !IsSpace(c) }

  function LowerChar(c: char): char {
    if 'A' <= c <= 'Z' then (c as int + 32) as char else c
  }

  /** str.lower() restricted to ASCII; the Arabic script has no case. */
  function Lower(s: string): (r: string)
    ensures |r| == |s|
    ensures forall i :: 0 <= i < |s| ==> r[i] == LowerChar(s[i])
  {
    seq(|s|, i requires 0 <= i < |s| => LowerChar(s[i]))
  }

  predicate IsPrefix(p: string, s: string) {
    |p| <= |s| && s[..|p|] == p
  }

  /** Python's `p in s`. */
  predicate Contains(s: string, p: string)
    decreases |s|
  {
    IsPrefix(p, s) || (|s| > 0 && Contains(s[1..], p))
  }

  /** Length of the longest prefix of `s` whose characters all satisfy `p`. */
  function Span(s: string, p: char -> bool): (n: nat)
    ensures n <= |s|
    ensures forall i :: 0 <= i < n ==> p(s[i])
    ensures n < |s| ==> !p(s[n])
  {
    if |s| > 0 && p(s[0]) then 1 + Span(s[1..], p) else 0
  }

  /** Python's s[:n]. */
  function Take<T>(s: seq<T>, n: nat): (r: seq<T>)
    ensures |r| == if |s| <= n then |s| else n
    ensures r == s[..|r|]
  {
    if |s| <= n then s else s[..n]
  }

  function TrimRight(s: string): (r: string)
    ensures |r| <= |s| && r == s[..|r|]
    ensures r == [] || !IsSpace(r[|r| - 1])
    ensures forall i :: |r| <= i < |s| ==> IsSpace(s[i])
  {
    if |s| > 0 && IsSpace(s[|s| - 1]) then TrimRight(s[..|s| - 1]) else s
  }

  /** Python's str.strip(): `r` is the slice of `s` left once the whitespace at both ends is gone. */
  function Strip(s: string): (r: string)
    ensures |r| <= |s| - Span(s, IsSpace)
    ensures r == s[Span(s, IsSpace)..Span(s, IsSpace) + |r|]
    ensures r == [] || (!IsSpace(r[0]) && !IsSpace(r[|r| - 1]))
    ensures forall i :: 0 <= i < |s| && (i < Span(s, IsSpace) || Span(s, IsSpace) + |r| <= i) ==> IsSpace(s[i])
  {
    TrimRight(s[Span(s, IsSpace)..])
  }

  /** strip() leaves a text without whitespace at its ends as it is. */
  lemma StripKeeps(s: string)
    requires s == [] || (!IsSpace(s[0]) && !IsSpace(s[|s| - 1]))
    ensures Strip(s) == s
  {
    if s != [] {
      assert Span(s, IsSpace) == 0;
      assert s[0..] == s;
    }
  }

  /** Python's str.split() with no argument: the maximal runs of non-whitespace. */
  function Split(s: string): (words: seq<string>)
    ensures forall k :: 0 <= k < |words| ==> |words[k]| > 0 && forall i :: 0 <= i < |words[k]| ==> NotSpace(words[k][i])
    decreases |s|
  {
    var t := s[Span(s, IsSpace)..];
    if |t| == 0 then []
    else
      var n := Span(t, NotSpace);
      [t[..n]] + Split(t[n..])
  }

  /** Python's sep.join(parts). */
  function Join(parts: seq<string>, sep: string): string {
    if |parts| == 0 then ""
    else if |parts| == 1 then parts[0]
    else parts[0] + sep + Join(parts[1..], sep)
  }

  /** Python's s.replace(pat, ""): every non-overlapping occurrence, left to right, is deleted. */
  function RemoveAll(s: string, pat: string): string
    decreases |s|
  {
    if |pat| == 0 || |s| == 0 then s
    else if IsPrefix(pat, s) then RemoveAll(s[|pat|..], pat)
    else [s[0]] + RemoveAll(s[1..], pat)
  }

  /** Python's s.split(sep)[0] for a non-empty separator: everything before the first `sep`. */
  function FirstSegment(s: string, sep: string): (r: string)
    requires |sep| > 0
    ensures |r| <= |s| && r == s[..|r|]
    decreases |s|
  {
    if |s| == 0 || IsPrefix(sep, s) then "" else [s[0]] + FirstSegment(s[1..], sep)
  }

  /** split(sep)[0] ends at the first occurrence of `sep`, or at the end of `s` when there is none. */
  lemma {:induction false} FirstSegmentFirst(s: string, sep: string)
    requires |sep| > 0
    ensures var r := FirstSegment(s, sep);
      (|r| == |s| || IsPrefix(sep, s[|r|..])) && forall j :: 0 <= j < |r| ==> !IsPrefix(sep, s[j..])
    decreases |s|
  {
    if |s| > 0 && !IsPrefix(sep, s) {
      var t := FirstSegment(s[1..], sep);
      FirstSegmentFirst(s[1..], sep);
      var r := [s[0]] + t;
      assert s[1..][|t|..] == s[|r|..];
      forall j | 0 <= j < |r| ensures !IsPrefix(sep, s[j..]) {
        if j > 0 {
          assert s[j..] == s[1..][j - 1..];
        }
      }
    }
  }

  // ---------------------------------------------------------------------
  // Lemmas about substrings

  lemma {:induction false} ContainsAt(s: string, p: string, i: nat)
    requires i + |p| <= |s| && s[i..i + |p|] == p
    ensures Contains(s, p)
    decreases i
  {
    if i == 0 {
      assert IsPrefix(p, s);
    } else {
      assert s[1..][i - 1..i - 1 + |p|] == s[i..i + |p|];
      ContainsAt(s[1..], p, i - 1);
    }
  }

  lemma {:induction false} ContainsWitness(s: string, p: string) returns (i: nat)
    requires Contains(s, p)
    ensures i + |p| <= |s| && s[i..i + |p|] == p
    decreases |s|
  {
    if IsPrefix(p, s) {
      i := 0;
    } else {
      var j := ContainsWitness(s[1..], p);
      assert s[1..][j..j + |p|] == s[j + 1..j + 1 + |p|];
      i := j + 1;
    }
  }

  /** Whatever a slice contains, the whole string contains. */
  lemma ContainsInSlice(s: string, lo: nat, hi: nat, p: string)
    requires lo <= hi <= |s| && Contains(s[lo..hi], p)
    ensures Contains(s, p)
  {
    var i := ContainsWitness(s[lo..hi], p);
    var u, v := s[lo..hi][i..i + |p|], s[lo + i..lo + i + |p|];
    assert u == v by {
      forall k | 0 <= k < |p| ensures u[k] == v[k] { }
    }
    ContainsAt(s, p, lo + i);
  }

  lemma ContainsLeft(a: string, b: string, p: string)
    requires Contains(a, p)
    ensures Contains(a + b, p)
  {
    assert (a + b)[..|a|] == a;
    ContainsInSlice(a + b, 0, |a|, p);
  }

  lemma ContainsRight(a: string, b: string, p: string)
    requires Contains(b, p)
    ensures Contains(a + b, p)
  {
    assert (a + b)[|a|..|a + b|] == b;
    ContainsInSlice(a + b, |a|, |a + b|, p);
  }

  lemma ContainsSelf(p: string)
    ensures Contains(p, p)
  {
    assert IsPrefix(p, p);
  }

  /** A string that holds no `p` is left alone by replace(p, ""). */
  lemma {:induction false} RemoveAllAbsent(s: string, pat: string)
    requires !Contains(s, pat)
    ensures RemoveAll(s, pat) == s
    decreases |s|
  {
    if |pat| == 0 || |s| == 0 {
    } else {
      assert !IsPrefix(pat, s);
      RemoveAllAbsent(s[1..], pat);
    }
  }

  /** A leading occurrence of `pat` is deleted by replace(pat, ""). */
  lemma RemoveAllLeading(pat: string, s: string)
    requires |pat| > 0
    ensures RemoveAll(pat + s, pat) == RemoveAll(s, pat)
  {
    assert IsPrefix(pat, pat + s);
    assert (pat + s)[|pat|..] == s;
  }

  /** A prefix of `s` that holds `sep` at its start means `s` holds it there too. */
  lemma PrefixOfPrefix(p: string, q: string, s: string)
    requires IsPrefix(p, q) && IsPrefix(q, s)
    ensures IsPrefix(p, s)
  {
    assert s[..|p|] == s[..|q|][..|p|];
  }

  /** split(sep)[0] never holds the separator. */
  lemma {:induction false} FirstSegmentFree(s: string, sep: string)
    requires |sep| > 0
    ensures !Contains(FirstSegment(s, sep), sep)
    decreases |s|
  {
    var r := FirstSegment(s, sep);
    if |s| == 0 || IsPrefix(sep, s) {
      assert r == "";
      assert !IsPrefix(sep, r);
    } else {
      var tail := FirstSegment(s[1..], sep);
      FirstSegmentFree(s[1..], sep);
      assert r == [s[0]] + tail;
      if IsPrefix(sep, r) {
        assert IsPrefix(r, s);
        PrefixOfPrefix(sep, r, s);
        assert false;
      }
      assert r[1..] == tail;
    }
  }

  /** A non-blank string whose first character is not whitespace keeps that character in split(sep)[0]. */
  lemma FirstSegmentStart(s: string, sep: string)
    requires |sep| > 0 && |s| > 0 && !IsSpace(s[0]) && IsSpace(sep[0])
    ensures |FirstSegment(s, sep)| > 0 && FirstSegment(s, sep)[0] == s[0]
  {
    assert !IsPrefix(sep, s);
  }

  /** sep.join(parts) starts with the first part. */
  lemma JoinStartsWithFirst(parts: seq<string>, sep: string)
    requires |parts| > 0
    ensures IsPrefix(parts[0], Join(parts, sep))
  {
    if |parts| > 1 {
      assert (parts[0] + sep + Join(parts[1..], sep))[..|parts[0]|] == parts[0];
    }
  }

  /** sep.join(parts) holds every part. */
  lemma {:induction false} JoinContains(parts: seq<string>, sep: string, i: nat)
    requires i < |parts|
    ensures Contains(Join(parts, sep), parts[i])
    decreases |parts|
  {
    if i == 0 {
      JoinStartsWithFirst(parts, sep);
      assert IsPrefix(parts[0], Join(parts, sep));
    } else {
      JoinContains(parts[1..], sep, i - 1);
      ContainsRight(parts[0] + sep, Join(parts[1..], sep), parts[i]);
    }
  }
}

=== FILE: Wrappers.dfy ===
/** The optional value used wherever the source returns None. */
module Wrappers {

  datatype Option<+T> = None | Some(value: T)
}
